=== FILE: README.md ===
# SFSGaming client core, modelled in Dafny

SFSGaming is a React Native client for sharing Spaceflight Simulator
blueprints and planet files. Almost all of it is UI or calls into Firebase,
the file system and HTTP. This project models the small decision procedures
embedded in it, as pure functions over immutable datatypes, and proves what
they promise:

- **The Redux store.** It has three slices: session (`AuthReducer`),
  application/toast (`AppReducer`) and theme (`ThemeReducer`). Each slice
  has action creators (`AuthActions`, `AppActions`, `ThemeActions`), and
  `RootReducer` combines them. Every reducer is a total function
  `(state, action) -> state`. The contracts say which fields each action
  changes and that nothing else changes.
- **The vote toggle** of a shared blueprint (`CollectionItem`). It removes
  the user's id from the voter list if present and appends it otherwise. The
  module also covers the displayed counts and the OPEN button.
- **The client-side search** shared by four lists (`Search`, `Sharing`,
  `GamingVideoList`, `EditBlueprintList`, `PlanetExplorer`). It is a
  case-insensitive substring filter that keeps the list's order. The module
  also covers the empty-list messages and the planet list's `.txt`
  stripping.
- **The validation chains** of sign-up and sign-in (`Validation`, `Signup`,
  `Login`). Checks run in order and the first failure is reported. The
  modules also cover what happens after the backend answers.
- **Request construction** (`Api`): URL resolution, default headers,
  method/body/response-type defaults, and the 401 sign-out rule.
- **Controller state** of the `Input`, `Button` and `Tab` components and of
  the navigator (`AppNavigator`).

`Wrappers` supplies `Option` (JavaScript's `null`/`undefined`) and `Result`
(a thrown error). `Text` models the JavaScript string built-ins the code
calls: truthiness, `toLowerCase`, `trim`, `indexOf`/`includes`, `replace`
and `${n}`. `Seqs` models `filter` and `map`. The URL and e-mail regular
expressions are parameters of type `string -> bool`.

## Model

| member | source | states |
|---|---|---|
| Text.OrElse | src/helper/api.ts:7 | `o \|\| d` on an optional string: the value when it is present and non-empty, otherwise the default |
| Text.ToLowerLength | src/screens/Sharing.tsx:50 | lower-casing keeps the length, so it never turns a non-empty search into an empty one |
| Text.ToLowerIdempotent | src/screens/Sharing.tsx:50 | lower-casing twice is lower-casing once |
| Text.ToLowerOfUpper | src/screens/Sharing.tsx:50 | upper-casing and then lower-casing is the same as lower-casing |
| Text.Trim | src/components/Input.tsx:46 | the result is a slice of the input, the dropped prefix and suffix are white space, and neither end of the result is white space |
| Text.TrimIdempotent | src/components/Input.tsx:46 | trimming an already trimmed value changes nothing |
| Text.IndexOf | src/components/PlanetExplorer.tsx:126 | the result is the first position where the pattern occurs, or none when it occurs nowhere |
| Text.ContainsIff | src/screens/Sharing.tsx:50 | `includes` holds exactly when the pattern occurs at some position |
| Text.ContainsTrivial | src/screens/Sharing.tsx:50 | every string includes the empty string and itself |
| Text.ReplaceFirst | src/components/PlanetExplorer.tsx:126 | only the first occurrence is replaced; without an occurrence the string is unchanged |
| Text.NatToString | src/components/Tab.tsx:56 | the printed form is non-empty decimal digits with no leading zero |
| Text.ParseNatToString | src/components/Tab.tsx:56 | reading the printed form back gives the number |
| Text.IntToString | src/components/Tab.tsx:56 | a leading minus sign appears exactly for negative numbers |
| Text.IntToStringInjective | src/components/Tab.tsx:56 | distinct indices print as distinct strings, so the fallback lookup of an index is unambiguous |
| Text.Utf16Length | src/components/Input.tsx:67 | `t.length` counts UTF-16 code units: at least one and at most two per character |
| Text.Utf16LengthOfBmp | src/components/Input.tsx:67 | `t.length` equals the number of characters exactly when none lies beyond the Basic Multilingual Plane |
| Seqs.Filter | src/screens/Sharing.tsx:66 | the result is a subsequence of the input holding only elements the predicate keeps, and every kept element of the input occurs in it |
| Seqs.FilterMultiplicity | src/screens/Sharing.tsx:66 | each kept element occurs in the result as many times as in the input; a rejected one does not occur |
| Seqs.FilterAll | src/screens/Sharing.tsx:49 | a predicate that keeps everything returns the input |
| Seqs.FilterConcat | src/components/CollectionItem.tsx:45-47 | filtering distributes over concatenation |
| Seqs.FilterIdempotent | src/components/CollectionItem.tsx:45 | filtering twice with one predicate is filtering once |
| Seqs.FilterCongruent | src/screens/Sharing.tsx:48-51 | predicates that agree on every element filter alike |
| Seqs.Map | src/components/EditBlueprintList.tsx:80 | one output per input, each the function applied to the input at that position |
| Entities.ToastTypeName | src/constants/enums.ts:1-8 | every severity's string is non-empty, so `type \|\| error` never replaces a given severity |
| AuthActions.ActionTypesDistinct | src/store/actions/auth.ts:4-10 | the seven session action-type strings are pairwise distinct |
| AuthActions.RemoveAuthUser | src/store/actions/auth.ts:12-17 | a LOGOUT action, plus a request to remove the `userData` storage key |
| AuthActions.Authenticate | src/store/actions/auth.ts:19-25 | always a LOGIN carrying the given user, null included; an omitted token becomes `""` |
| AuthActions.UpdateUserProfile | src/store/actions/auth.ts:27-32 | an UPDATE_USER_INFO action carrying the user |
| AuthReducer.Reduce | src/store/reducers/auth.ts:14-37 | LOGIN sets user and token from the action; LOGOUT clears only the user; UPDATE_USER_INFO replaces only the user; the token changes only on LOGIN and the user only on these three actions |
| AuthReducer.LoginIdempotent | src/store/reducers/auth.ts:16-21 | the same LOGIN applied twice gives the state that one application gives |
| AuthReducer.LoginForgetsPrevious | src/store/reducers/auth.ts:16-21 | the state after a LOGIN does not depend on the state before it |
| AuthReducer.AuthenticateNull | src/store/actions/auth.ts:19-25 | `authenticate(null)` reduces to no user and token `""`, not the initial null token |
| AuthReducer.LogoutKeepsToken | src/store/reducers/auth.ts:23-27 | logging out after a login keeps the login's token |
| AuthReducer.UpdateAfterLogin | src/store/reducers/auth.ts:29-33 | a profile update after a login shows the new profile and keeps the token |
| AppActions.SetToast | src/store/actions/app.ts:5-16 | a SHOW_TOAST that copies title, text, icon and icon family; the severity is the given one, or `error` when absent |
| AppActions.SetNotificationToast | src/store/actions/app.ts:18-23 | a SET_NOTIFICATION_TOAST whose payload defaults to the empty object |
| AppReducer.Reduce | src/store/reducers/app.ts:15-29 | SHOW_TOAST sets the toast; SET_NOTIFICATION_TOAST sets the notification; drawer and active route never change; toast and notification change only on their own action |
| AppReducer.ShowToastIdempotent | src/store/reducers/app.ts:17-21 | showing the same toast twice gives the state that showing it once gives |
| AppReducer.SetToastDefaultsToError | src/store/actions/app.ts:11 | a toast requested without a severity is stored, and stored as an error |
| ThemeActions.SetTheme | src/store/actions/theme.ts:3-18 | SET_DARK_THEME exactly for "dark", SET_DIM_THEME exactly for "dim", SET_LIGHT_THEME for everything else, the default included |
| ThemeActions.SetThemeLight | src/store/actions/theme.ts:3-18 | the comparison is case-sensitive ("Dark" selects light), and the default selects light |
| ThemeReducer.Reduce | src/store/reducers/theme.ts:8-15 | SET_DARK_THEME selects the dark theme; every other action keeps the theme |
| ThemeReducer.DarkIdempotent | src/store/reducers/theme.ts:10-11 | SET_DARK_THEME twice is SET_DARK_THEME once |
| ThemeReducer.AlwaysDark | src/store/reducers/theme.ts:6-14 | from the initial state, every sequence of actions leaves the dark theme in place |
| RootReducer.Dispatch | src/store/reducers/index.ts:12-16 | each slice sees every action; a slice that handles no case of the action is unchanged |
| RootReducer.Create | src/store/index.ts:8-14 | slices missing from the preloaded state take their reducer's initial state |
| RootReducer.CreateEmpty | src/store/index.ts:8 | a store created from `{}` has nobody signed in, no toast, a closed drawer and the dark theme |
| CollectionItem.Toggle | src/components/CollectionItem.tsx:43-48 | the uid is in the result exactly when it was not in the list; other voters are kept; a new vote is appended at the end |
| CollectionItem.ToggleKeepsOthers | src/components/CollectionItem.tsx:43-48 | the other voters keep their order: only the uid moves |
| CollectionItem.ToggleRemovesAll | src/components/CollectionItem.tsx:45 | removing a vote deletes every occurrence of the uid and keeps every other voter as many times as before |
| CollectionItem.ToggleTwiceRestores | src/components/CollectionItem.tsx:43-48 | voting twice, starting from a list without the uid, restores the list |
| CollectionItem.OnVote | src/components/CollectionItem.tsx:38-68 | without a user nothing is written; otherwise the toggled list (a missing list counting as empty) is written under `bps/<key>/likers` or `dislikers`; the loader goes on, then off |
| CollectionItem.VotesTouchSeparateLists | src/components/CollectionItem.tsx:41 | a like and a dislike write to different paths |
| CollectionItem.CountLabelOf | src/components/CollectionItem.tsx:87 | the label is the list's length when the list is non-empty, otherwise the text "0" |
| CollectionItem.CountReadsAsLength | src/components/CollectionItem.tsx:87-90 | either way the label reads as the decimal number of voters |
| CollectionItem.OnOpen | src/components/CollectionItem.tsx:32-36 | the link is opened exactly when it is non-empty |
| CollectionItem.OpenDisabled | src/components/CollectionItem.tsx:83 | the OPEN button is disabled exactly when pressing it would open nothing |
| Search.MatchesIff | src/screens/Sharing.tsx:48-51 | an item is kept exactly when the search is empty or the lower-cased search occurs in the lower-cased name |
| Search.MatchesCaseInsensitive | src/screens/Sharing.tsx:50 | searches that lower-case alike keep the same names |
| Search.MatchesItself | src/screens/Sharing.tsx:50 | a name matches a search for itself in any letter case |
| Search.SearchFilter | src/screens/Sharing.tsx:66 | an empty search keeps everything; otherwise the result holds exactly the matching items, each as often as in the input, in order |
| Search.NoMatchListsNothing | src/screens/Sharing.tsx:66 | when no name matches, the list is empty |
| Search.SearchCaseInsensitive | src/screens/Sharing.tsx:48-51 | the filtered list does not depend on the letter case of the search |
| Search.ObjectValues | src/screens/Sharing.tsx:66 | `Object.values(data \|\| {})`: nothing for null data, otherwise the values in enumeration order |
| Search.ValuesListed | src/screens/Sharing.tsx:48-66 | the Sharing and gaming-video pipeline: null data lists nothing; an empty search lists every record; otherwise exactly the records whose name matches, each as often as in the data, in enumeration order |
| Search.ValuesListedIff | src/screens/Sharing.tsx:48-66 | a record is listed exactly when the data holds it and its name matches the search |
| Search.ValuesListedCaseInsensitive | src/components/GamingVideoList.tsx:50-73 | searches that differ only in letter case list the same records |
| Search.NoResultMessage | src/components/GamingVideoList.tsx:45 | the fixed message "No Video found!" appears exactly for an empty search; any other message quotes the search |
| Search.NoResultMessageQuotes | src/components/GamingVideoList.tsx:45 | a non-empty search stands verbatim between the closing quotes of the message |
| Search.NoResultMessageInjective | src/components/GamingVideoList.tsx:45 | distinct searches show distinct messages |
| Search.EmptyView | src/components/GamingVideoList.tsx:34-48 | six skeletons while loading, afterwards the no-result message |
| Sharing.PostListed | src/screens/Sharing.tsx:48-66 | a shared blueprint is listed exactly when the data holds it and its name matches the search |
| Sharing.EmptyView | src/screens/Sharing.tsx:26-40 | six skeletons exactly while loading, afterwards "No Posts found!" |
| GamingVideoList.VideosCaseInsensitive | src/components/GamingVideoList.tsx:50-73 | the videos listed do not depend on the letter case of the search |
| GamingVideoList.EmptyViewIdentifiesSearch | src/components/GamingVideoList.tsx:34-48 | while loading the view is the same for every search; afterwards distinct searches show distinct views |
| EditBlueprintList.Listing | src/components/EditBlueprintList.tsx:79-80 | one name per directory entry, in listing order |
| EditBlueprintList.Listed | src/components/EditBlueprintList.tsx:105-108 | no data yet lists nothing (`\|\| []`); otherwise exactly the matching file names, each as often as in the listing, in order |
| EditBlueprintList.ListedCaseInsensitive | src/components/EditBlueprintList.tsx:107 | searches that differ only in letter case list the same files |
| EditBlueprintList.OnSelect | src/components/EditBlueprintList.tsx:160-162 | choosing a file opens "Edit" with that name as a blueprint |
| PlanetExplorer.Rows | src/components/PlanetExplorer.tsx:64-126 | no data yet shows nothing; each row opens a raw file name matching the search and shows that name without its first `.txt`; there is exactly one row per name the search keeps, in the same order and with the same repetitions; an empty search shows every file in order |
| PlanetExplorer.RowsCaseInsensitive | src/components/PlanetExplorer.tsx:64-81 | searches that differ only in letter case show the same rows |
| PlanetExplorer.DisplayName | src/components/PlanetExplorer.tsx:126 | the first `.txt`, wherever it is, is removed, making the name four characters shorter; a name without `.txt` is unchanged |
| PlanetExplorer.DisplayNameUnchangedIff | src/components/PlanetExplorer.tsx:126 | a name is displayed unchanged exactly when it contains no `.txt` |
| PlanetExplorer.DisplayNameStripsExtension | src/components/PlanetExplorer.tsx:126 | "Earth.txt" is displayed as "Earth" |
| PlanetExplorer.DisplayNameStripsFirstOnly | src/components/PlanetExplorer.tsx:126 | "a.txt.txt" is displayed as "a.txt" |
| PlanetExplorer.OnSelect | src/components/PlanetExplorer.tsx:119-121 | choosing a file opens "Edit" with the raw name as a planet |
| Validation.FirstFailure | src/screens/Signup.tsx:44-47 | the position of the first failing check, every earlier check passing; none exactly when all pass |
| Validation.Decide | src/screens/Signup.tsx:44-47 | all checks passing proceeds, with the given request; otherwise the first failing check's field and message are reported |
| Signup.Register | src/screens/Signup.tsx:36-47 | nothing when the button is disabled; an empty email, then an invalid one, is reported on the email field; the request proceeds exactly when the email is valid, the password is non-empty and it equals the confirmation |
| Signup.RegisterIsFirstFailure | src/screens/Signup.tsx:44-47 | the nested ifs are exactly the first-failure rule over the four ordered checks |
| Signup.NameNotValidated | src/screens/Signup.tsx:42-47 | the name never changes whether the request proceeds or which error is reported |
| Signup.SubmitIgnoredWhileLoading | src/screens/Signup.tsx:37 | while the button's loader is on, a submit does nothing |
| Signup.AfterCreate | src/screens/Signup.tsx:53-65 | success authenticates the new user; failure shows an error toast titled "Error Signing In" with the error's message, or "Unable to Sign In"; the loader is cleared either way |
| Signup.ButtonEnabledAfterCreate | src/screens/Signup.tsx:51-65 | whatever the backend answered, an enabled button is enabled again after the attempt |
| Login.HandleLogin | src/screens/Login.tsx:31-39 | nothing when the button is disabled; the request proceeds exactly when the email is valid and the password non-empty, with no confirmation check |
| Login.HandleLoginIsFirstFailure | src/screens/Login.tsx:37-39 | the nested ifs are exactly the first-failure rule over the three ordered checks |
| Login.LoginErrorsAreSignupErrors | src/screens/Login.tsx:37-39 | every error sign-in reports is the one sign-up reports for the same email and password |
| Login.SubmitIgnoredWhileLoading | src/screens/Login.tsx:32 | while the button's loader is on, a submit does nothing |
| Login.AfterSignIn | src/screens/Login.tsx:45-54 | success authenticates the user; `auth/user-not-found` opens Signup with the email; any other failure does nothing; the loader is cleared either way |
| Login.SignInSignsUserIn | src/screens/Login.tsx:45-46 | whatever the session was, a successful sign-in leaves that user signed in with the token `""` |
| Api.ApiUrl | src/helper/api.ts:7 | the configured base URL, or `""` when it is not set |
| Api.GetUrl | src/helper/api.ts:79-89 | a missing or empty path fails with "Path is undefined"; a path the URL pattern accepts is used verbatim; any other path becomes `API_URL + "/" + path` |
| Api.GetHeaders | src/helper/api.ts:91-108 | no headers for an absolute URL; otherwise JSON Content-Type and Accept are always present, so the map is never undefined, and `token` is present exactly when the access token is truthy |
| Api.BuildRequest | src/helper/api.ts:21-34 | a POST (in any ASCII letter case) without a body gets `{}`; a body the caller gave is sent unchanged; the method defaults to GET and the response type to "json"; a URL failure rejects the call |
| Api.DispatchRequest | src/helper/api.ts:64-67 | the headers computed from the session replace the caller's headers; the URL is resolved as in `getURL` |
| Api.RelativeRequestCarriesToken | src/helper/api.ts:84-103 | a relative request made with a token goes to the API base and carries the token |
| Api.OnFailure | src/helper/api.ts:70-76 | a 401 dispatches `authenticate(null)` followed by the caller's failure action if there is one, and nothing else; any other failure dispatches only the caller's failure action, if any; the error is always rethrown |
| Api.Unauthorized401SignsOut | src/helper/api.ts:71-73 | after a 401 the session has no user and the token `""` |
| Api.OtherFailureKeepsSession | src/helper/api.ts:70-76 | a failure other than a 401, without a failure callback, leaves the session as it was |
| Input.Init | src/components/Input.tsx:35-38 | an empty value and no error; the remaining count is the limit, or 0 without a limit |
| Input.Value | src/components/Input.tsx:44-50 | a non-empty argument is trimmed, stored and shown; an empty or missing one changes nothing; the result is the stored value, else the `value` prop, else `""` |
| Input.ValueThenRead | src/components/Input.tsx:44-50 | reading after setting gives the trimmed value, or the prop when the value was only white space |
| Input.ValueSetIdempotent | src/components/Input.tsx:46 | setting the value read back changes nothing |
| Input.OnChangeText | src/components/Input.tsx:64-69 | typing stores the raw text and clears the error; with a limit, the remaining count becomes the limit minus the text's UTF-16 length; the text is handed on |
| Input.RemainingMayBeNegative | src/components/Input.tsx:67 | typing past the limit makes the count negative |
| Input.AstralCharCountsTwice | src/components/Input.tsx:67 | one emoji uses up two of the limit |
| Input.RemainingCountsCharacters | src/components/Input.tsx:67 | without characters beyond the Basic Multilingual Plane, the count is the limit minus the number of characters |
| Input.TypedTextReadsRaw | src/components/Input.tsx:49-65 | typed text is read back untrimmed |
| Input.SyncValueProp | src/components/Input.tsx:71-76 | the effect runs on mount and when the prop changed since the last render; then a non-empty prop that differs from the stored value overwrites it untrimmed, and the field shows it trimmed; otherwise nothing changes |
| Input.RerenderKeepsTypedText | src/components/Input.tsx:64-76 | a re-render with an unchanged prop keeps what the user typed |
| Input.SyncThenRead | src/components/Input.tsx:44-76 | after a new non-empty prop is synced, reading the input gives the prop |
| Input.SyncTwiceIsOnce | src/components/Input.tsx:71-76 | once the effect has run for a prop, running it again for that prop changes nothing |
| Button.WithDefaults | src/components/Button.tsx:115-121 | `disabled` and `outline` default to false |
| Button.ShowLoader | src/components/Button.tsx:49-51 | the loader is set to the argument, or to true without one |
| Button.IsLoadingReflectsLastCall | src/components/Button.tsx:54 | after `showLoader(x)` the button is loading unless x is false |
| Button.IsDisabled | src/components/Button.tsx:55 | disabled exactly when the prop is set or the loader is on |
| Button.TouchableDisabled | src/components/Button.tsx:61 | the touchable is disabled exactly when `isDisabled()` holds |
| Button.PressForwardsAsWritten | src/components/Button.tsx:44-46 | the press guard as written forwards unless the button is both disabled and loading |
| Button.PressGuardLetsDisabledThrough | src/components/Button.tsx:45 | a disabled button that is not loading still forwards the press |
| Button.PressForwards | src/components/Button.tsx:44-61 | the corrected guard forwards exactly when the button is not disabled |
| Button.PressGuardsDiffer | src/components/Button.tsx:45-55 | the two guards differ exactly when exactly one of `disabled` and `loader` is set |
| Button.ContentColor | src/components/Button.tsx:74-83 | the styled colour when both background and colour are styled; otherwise the styled colour or primary for an outline button; otherwise black |
| Button.UnstyledColours | src/components/Button.tsx:74-89 | an unstyled button is black on primary; an unstyled outline button is primary on transparent |
| Button.BackgroundColor | src/components/Button.tsx:89 | outline buttons are transparent; others take the styled colour or primary |
| Button.BorderColor | src/components/Button.tsx:87 | the styled colour, or primary |
| Button.RenderedBackground | src/components/Button.tsx:63 | the caller's style comes last, so a styled background replaces the stylesheet's container colour |
| Button.ColoursFollowBorder | src/components/Button.tsx:63-89 | in the stylesheet, an outline button's text takes the border colour over a transparent container and any other container takes the border colour; as drawn, a button without a styled background shows that container colour, with black text unless it is an outline button, and one with a styled background and colour shows the styled colour on the styled background |
| Tab.Routes | src/components/Tab.tsx:42-51 | one route per data key, in key order, keyed by the key and titled with the trimmed key |
| Tab.FindIndex | src/components/Tab.tsx:56 | the first position holding the key, or -1 exactly when no position does |
| Tab.ResolveIndex | src/components/Tab.tsx:56 | the index is kept when its key is present; otherwise the position of the key spelled as the index |
| Tab.ResolveIndexMeaning | src/components/Tab.tsx:56 | a resolved index is the requested tab, or the first key spelling the requested number; -1 exactly when neither exists |
| Tab.ResolveNumericKey | src/components/Tab.tsx:56 | with keys "3" and "7" (the order `Object.keys` gives), index 7 resolves to the tab keyed "7" |
| Tab.PreviousOf | src/components/Tab.tsx:66 | the previous key is null exactly when the previous index is missing or 0; it is `keys[previousIndex]` when in range; otherwise undefined |
| Tab.OnIndexChange | src/components/Tab.tsx:53-68 | an index that was never laid out throws; otherwise the stored index becomes the resolved one, and a scroll to the tab's x happens once for ending past the screen and once for starting left of the offset, none exactly when the tab is in view; the callback gets the new key and the previous key |
| Tab.NoLayoutFails | src/components/Tab.tsx:39-58 | with no tab laid out, every index change throws |
| Tab.FirstTabReadsAsNoPrevious | src/components/Tab.tsx:66 | leaving the first tab reports the same as having no previous tab |
| Tab.StayInView | src/components/Tab.tsx:56-67 | re-selecting a visible tab keeps the index and scrolls nowhere |
| Tab.RenderAsWritten | src/components/Tab.tsx:42-131 | as written, missing data throws in `Object.keys`; present data renders one route per key |
| Tab.MissingDataThrows | src/components/Tab.tsx:44 | as written, missing data throws instead of rendering nothing |
| Tab.Render | src/components/Tab.tsx:120-131 | corrected: missing data renders nothing; present data renders the routes at the current index |
| Tab.RenderAgreesOnPresentData | src/components/Tab.tsx:42-121 | the corrected and written renderings differ only on missing data |
| AppNavigator.TabKeys | src/navigation/AppNavigator.tsx:36-61 | the tabs' route keys, in tab order |
| AppNavigator.FilteredRoutes | src/navigation/AppNavigator.tsx:105-111 | the route keys with every tab key deleted, in order; no tab key survives, and every other key does |
| AppNavigator.StackScreens | src/navigation/AppNavigator.tsx:24-111 | the main stack registers exactly "Edit" and "Index" |
| AppNavigator.TabsAreRoutes | src/navigation/AppNavigator.tsx:24-61 | every tab's key names a route, so every tab screen has a component |
| AppNavigator.TabIcon | src/navigation/AppNavigator.tsx:93 | a focused tab shows its first icon, an unfocused tab its second |
| AppNavigator.TabIconsDefined | src/navigation/AppNavigator.tsx:36-93 | every tab has both icons; the search and gaming tabs look the same focused and unfocused, the edit tab does not |
| AppNavigator.TabScreens | src/navigation/AppNavigator.tsx:86-96 | one screen per tab, named by its label and keyed and backed by its key |
| AppNavigator.InitialRoutesRegistered | src/navigation/AppNavigator.tsx:81-115 | the initial tab "Sharing" is the first tab screen, and the main stack's initial route "Index" is registered |
| AppNavigator.RootScreens | src/navigation/AppNavigator.tsx:159-171 | with a user uid only "Main" is registered; otherwise only "Login" and "Signup" are |
| AppNavigator.RootInitialOnlySignedOut | src/navigation/AppNavigator.tsx:150-171 | the root's initial route "Login" is registered exactly when nobody is signed in |
| AppNavigator.EmptyUidSignedOut | src/navigation/AppNavigator.tsx:159 | a user whose uid is empty is treated as signed out |

## Left out

- Rendering, styles, layout sizes and the `moderateScale`/theme numbers are not modelled: they are UI and mostly floating point. Components are named, not modelled.
- Firebase authentication, the realtime database and storage are foreign I/O. Their answers are parameters (`CreateResult`, `SignInResult`, the stored voter list). Profile updates and download URLs are not modelled.
- CollectionItem.OnVote: the read (`once`) and the write (`set`) are separate asynchronous calls, so two concurrent voters can lose a vote. That race is concurrency and is left out. The stored list is given as the value the read returned.
- File-system listing (`readDir`), the editor, the upload pipeline, the YouTube fetch and Android permissions are left out: they are I/O. `EditBlueprintList.Listing` models only the name extraction.
- Toast animations and the dismiss timer, the Drawer, Modal, Icon, Spinner, Image and header components, and the app bootstrap from storage are left out: they are UI, timers and I/O.
- Seqs.Filter: its own contract does not fix how often a kept element occurs; `Seqs.FilterMultiplicity` states that, so that the many literal-list proofs about `Filter` stay cheap.
- Text.ToLower: only ASCII letters change case. JavaScript's full Unicode case mapping is not modelled, so searches differing only in non-ASCII case may differ here.
- The e-mail and URL regular expressions are not part of this model. They appear as `isEmail`/`isUrl` parameters.
- JavaScript objects are modelled as entry sequences in enumeration order. The rule that integer-like keys enumerate first is the caller's responsibility.
- `null` and `undefined` are both `None`. Falsy non-string values (`0`, `NaN`, `false` where a string is expected) are not modelled.
- Tab.OnIndexChange: layout positions, the scroll offset and the device width are integers here, not floating point. A string argument to `setTabIndex` is not modelled, and neither is a fractional one. The scroll view being unmounted (the optional `scrollTo`) is folded into "scroll requested".
- Api.BuildRequest: `cancelToken` and the progress callbacks are passed through to the HTTP client and are not modelled. The method's case folding is ASCII-only (`Text.ToUpper`): a method that only JavaScript's full Unicode `toUpperCase` maps to "POST", such as "poſt", is not treated as a POST here. The HTTP call itself, the success branch (which hands the response to the caller unchanged) and the console logging are I/O.
- Api.DispatchRequest: `apiCall` and `dispatchAPI` mutate the caller's `params` in place, setting `data = {}` for a bodiless POST and replacing `headers` with the session's. The mutated object is what the success and failure callbacks receive. The model treats `params` as an immutable value and does not model what the callbacks see.
- Api.OnFailure: the HTTP status is given. Errors without a response are `None`.
- The navigation container, `navigationRef` and react-navigation's own handling of an unregistered initial route are library behaviour and are left out.
- store/constant/app.ts and store/constant/theme.ts are not part of this model. The action types they define (SHOW_TOAST, SET_NOTIFICATION_TOAST, SET_DARK_THEME, SET_DIM_THEME, SET_LIGHT_THEME) are distinct constructors of `Actions.Action`, so they are assumed pairwise distinct.
- Button.RenderedBackground: only the background of the caller's `style` is modelled. A `backgroundColor` key that is present but undefined is treated as absent. The loading style (opacity) and the rest of the style merge are UI.
- Only the theme's type, primary colour and black colour are modelled; the rest of the theme object is styling.
- Input: focus state, label, icons and the `setError` handle exposed to callers are UI. The native text shown is recorded, not rendered.
- Actions: an action is identified by its constructor. `OtherAction` stands only for type strings that no reducer handles; the datatype does not stop a caller from writing `OtherAction("LOGIN")`, which would be a LOGIN in JavaScript.
- Input.SyncValueProp: the previous render's prop is given as a parameter (`None` on mount). React's own scheduling of effects is not modelled.
- Signup.Register and Login.HandleLogin take the field values as strings. Those values are what `Input.Value` returns when read with no argument.

## Findings

| source | as written | input that shows it | evidently intended | confidence | as-written member | corrected member |
|---|---|---|---|---|---|---|
| src/components/Button.tsx:45 | `press` forwards to `onPress` when `!disabled \|\| !loader`, i.e. unless both are set | `disabled = true`, `loader = false`: `isDisabled()` is true, yet the handler runs (`Button.PressGuardLetsDisabledThrough`); a loading button that is not disabled also forwards | forward exactly when `!(disabled \|\| loader)`, the condition `isDisabled()` and the touchable use | medium, not executed; the touchable's own `disabled` blocks taps, so only the imperative `press` handle is affected | Button.PressForwardsAsWritten | Button.PressForwards |
| src/components/Tab.tsx:42-51 | the routes are computed with `Object.keys(props.data)` before the `!props.data` guard at lines 120-121 | `data` undefined: `Object.keys` throws a TypeError, so the guard is never reached (`Tab.MissingDataThrows`) | missing data renders nothing | medium, not executed; the prop is typed as required, so only an untyped caller can pass nothing | Tab.RenderAsWritten | Tab.Render |

=== FILE: actions.dfy ===
/**
 The shapes of every action dispatched to the Redux store. The reducers
 switch on the action's type; each constructor here is one type string.
 */
module Actions {
  import opened Wrappers
  import opened Entities

  /**
   `OtherAction` stands for an action whose type string none of the
   reducers handles (REGISTER, SETLOADING, AUTHENTICATE, UPDATE_LIKED_POSTS,
   the store's own initialisation action, ...).
   */
  datatype Action =
    | LoginAction(user: Option<User>, accessToken: string)
    | LogoutAction
    | UpdateUserInfoAction(profile: User)
    | ShowToastAction(toast: Toast)
    | SetNotificationToastAction(notification: Notification)
    | SetDarkThemeAction
    | SetDimThemeAction
    | SetLightThemeAction
    | OtherAction(actionType: string)
}

=== FILE: api.dfy ===
/**
 Building HTTP requests for the backend API: URL resolution, default
 headers, method/body/response-type defaults, and the reaction to a
 failed request (a 401 signs the user out).
 */
module Api {
  import opened Wrappers
  import opened Actions
  import Text
  import AuthActions
  import AuthReducer

  /** `${Config.BASE_URL || ""}`. */
  function ApiUrl(baseUrl: Option<string>): (r: string)
    ensures Text.TruthyOpt(baseUrl) ==> r == baseUrl.value
    ensures !Text.TruthyOpt(baseUrl) ==> r == ""
  {
    Text.OrElse(baseUrl, "")
  }

  const PathUndefined := "Path is undefined"

  /**
   `getURL`: a missing or empty path throws "Path is undefined"; a path the
   URL pattern accepts is used as it is; any other path is appended to the
   API base after a slash.
   */
  function GetUrl(path: Option<string>, isUrl: string -> bool, apiUrl: string): (r: Result<string, string>)
    ensures r.Failure? <==> !Text.TruthyOpt(path)
    ensures r.Failure? ==> r.error == PathUndefined
    ensures r.Success? && isUrl(path.value) ==> r.value == path.value
    ensures r.Success? && !isUrl(path.value) ==> r.value == apiUrl + "/" + path.value
  {
    if Text.TruthyOpt(path) then
      if isUrl(path.value) then Success(path.value) else Success(apiUrl + "/" + path.value)
    else Failure(PathUndefined)
  }

  type Headers = map<string, string>

  const JsonType := "application/json"

  /**
   `getHeaders`: no headers for an absolute URL; otherwise JSON content
   type and accept headers, plus a `token` header exactly when the stored
   access token is truthy. The result is never undefined.
   */
  function GetHeaders(path: Option<string>, accessToken: Option<string>, isUrl: string -> bool): (r: Option<Headers>)
    ensures r.Some?
    ensures isUrl(Text.OrElse(path, "")) ==> r.value == map[]
    ensures !isUrl(Text.OrElse(path, "")) ==>
      && "Content-Type" in r.value && r.value["Content-Type"] == JsonType
      && "Accept" in r.value && r.value["Accept"] == JsonType
      && ("token" in r.value <==> Text.TruthyOpt(accessToken))
    ensures "token" in r.value ==> r.value["token"] == accessToken.value
    ensures r.value.Keys <= {"Content-Type", "Accept", "token"}
  {
    if isUrl(Text.OrElse(path, "")) then Some(map[])
    else
      var a := map["Content-Type" := JsonType, "Accept" := JsonType];
      var a' := if Text.TruthyOpt(accessToken) then a["token" := accessToken.value] else a;
      if |a'.Keys| > 0 then Some(a') else None
  }

  /** A JSON request body; `{}` is `Body(map[])`. */
  datatype Body = Body(fields: map<string, string>)

  /** The caller's request description; `None` stands for an absent or falsy field. */
  datatype ApiParam = ApiParam(
    path: Option<string>,
    httpMethod: Option<string>,
    data: Option<Body>,
    query: Option<map<string, string>>,
    headers: Option<Headers>,
    responseType: Option<string>)

  /** The configuration handed to the HTTP client. */
  datatype RequestConfig = RequestConfig(
    url: string,
    headers: Option<Headers>,
    httpMethod: string,
    data: Option<Body>,
    query: Option<map<string, string>>,
    responseType: string)

  /** The method is POST, compared case-insensitively. */
  predicate IsPost(m: Option<string>) {
    m.Some? && Text.ToUpper(m.value) == "POST"
  }

  /**
   The request `apiCall` sends: a POST without a body gets `{}`; the method
   defaults to GET and the response type to "json"; URL resolution failure
   rejects the call.
   */
  function BuildRequest(p: ApiParam, isUrl: string -> bool, apiUrl: string): (r: Result<RequestConfig, string>)
    ensures r.Failure? <==> GetUrl(p.path, isUrl, apiUrl).Failure?
    ensures r.Success? ==> r.value.url == GetUrl(p.path, isUrl, apiUrl).value
    ensures r.Success? ==> r.value.httpMethod == Text.OrElse(p.httpMethod, "GET")
    ensures r.Success? ==> r.value.responseType == Text.OrElse(p.responseType, "json")
    ensures r.Success? ==> r.value.headers == p.headers && r.value.query == p.query
    ensures r.Success? && IsPost(p.httpMethod) ==> r.value.data.Some?
    ensures r.Success? && IsPost(p.httpMethod) && p.data.None? ==> r.value.data == Some(Body(map[]))
    ensures r.Success? && !IsPost(p.httpMethod) ==> r.value.data == p.data
    ensures r.Success? && p.data.Some? ==> r.value.data == p.data
  {
    var data := if IsPost(p.httpMethod) && p.data.None? then Some(Body(map[])) else p.data;
    var url :- GetUrl(p.path, isUrl, apiUrl);
    Success(RequestConfig(url, p.headers, Text.OrElse(p.httpMethod, "GET"), data, p.query, Text.OrElse(p.responseType, "json")))
  }

  /**
   `dispatchAPI`'s request: the headers computed from the current session
   replace whatever headers the caller supplied.
   */
  function DispatchRequest(p: ApiParam, auth: AuthReducer.AuthState, isUrl: string -> bool, apiUrl: string): (r: Result<RequestConfig, string>)
    ensures r.Success? ==> r.value.headers == GetHeaders(p.path, auth.accessToken, isUrl)
    ensures r.Success? ==> GetUrl(p.path, isUrl, apiUrl).Success? && r.value.url == GetUrl(p.path, isUrl, apiUrl).value
    ensures r.Failure? <==> !Text.TruthyOpt(p.path)
  {
    BuildRequest(p.(headers := GetHeaders(p.path, auth.accessToken, isUrl)), isUrl, apiUrl)
  }

  /** A relative request made while signed in with a token carries that token. */
  lemma RelativeRequestCarriesToken(p: ApiParam, auth: AuthReducer.AuthState, isUrl: string -> bool, apiUrl: string)
    requires Text.TruthyOpt(p.path) && !isUrl(p.path.value)
    requires Text.TruthyOpt(auth.accessToken)
    ensures DispatchRequest(p, auth, isUrl, apiUrl).Success?
    ensures DispatchRequest(p, auth, isUrl, apiUrl).value.url == apiUrl + "/" + p.path.value
    ensures DispatchRequest(p, auth, isUrl, apiUrl).value.headers.value["token"] == auth.accessToken.value
  {
  }

  /** What a failed dispatched request does: the actions it dispatches, in order, and whether the error propagates. */
  datatype FailureEffects = FailureEffects(dispatched: seq<Action>, rethrown: bool)

  /**
   The failure branch of `dispatchAPI`: a 401 dispatches `authenticate(null)`
   first, then the caller's failure action if there is one; the error is
   always rethrown.
   */
  function OnFailure(status: Option<int>, onFailure: Option<Action>): (r: FailureEffects)
    ensures r.rethrown
    ensures status == Some(401) ==> |r.dispatched| >= 1 && r.dispatched[0] == AuthActions.Authenticate(None, None)
    ensures status != Some(401) ==> (r.dispatched == [] <==> onFailure.None?)
    ensures status != Some(401) ==> r.dispatched == (if onFailure.Some? then [onFailure.value] else [])
    ensures status == Some(401) ==>
      r.dispatched == [AuthActions.Authenticate(None, None)] + (if onFailure.Some? then [onFailure.value] else [])
    ensures onFailure.Some? ==> r.dispatched[|r.dispatched| - 1] == onFailure.value
    ensures |r.dispatched| <= 2
  {
    var signOut := if status == Some(401) then [AuthActions.Authenticate(None, None)] else [];
    var callback := if onFailure.Some? then [onFailure.value] else [];
    FailureEffects(signOut + callback, true)
  }

  /** The session after dispatching `actions` in order. */
  function ReduceAll(s: AuthReducer.AuthState, actions: seq<Action>): AuthReducer.AuthState
    decreases |actions|
  {
    if actions == [] then s else ReduceAll(AuthReducer.Reduce(s, actions[0]), actions[1..])
  }

  /** A 401 with no failure callback signs the user out and leaves an empty token. */
  lemma Unauthorized401SignsOut(s: AuthReducer.AuthState)
    ensures ReduceAll(s, OnFailure(Some(401), None).dispatched) == AuthReducer.AuthState(None, Some(""))
  {
    var d := OnFailure(Some(401), None).dispatched;
    assert d == [LoginAction(None, "")];
    assert d[1..] == [];
  }

  /** Any other failure without a failure callback leaves the session as it was. */
  lemma OtherFailureKeepsSession(s: AuthReducer.AuthState, status: Option<int>)
    requires status != Some(401)
    ensures ReduceAll(s, OnFailure(status, None).dispatched) == s
  {
  }
}

=== FILE: app_actions.dfy ===
/** Action creators for the application slice (toasts). */
module AppActions {
  import opened Wrappers
  import opened Entities
  import opened Actions

  /**
   `setToast(info)`: a SHOW_TOAST whose toast copies the title, text, icon
   and icon family and takes the severity from `info`, `error` when absent.
   */
  function SetToast(info: ToastInfo): (a: Action)
    ensures a.ShowToastAction?
    ensures a.toast.title == info.title && a.toast.text == info.text
    ensures a.toast.icon == info.icon && a.toast.iconType == info.iconType
    ensures info.kind.Some? ==> a.toast.kind == info.kind.value
    ensures info.kind.None? ==> a.toast.kind == Error
  {
    ShowToastAction(Toast(info.title, info.text, info.kind.GetOr(Error), info.icon, info.iconType))
  }

  /** `setNotificationToast(notification)`: the argument defaults to the empty object. */
  function SetNotificationToast(notification: Option<Notification>): (a: Action)
    ensures a.SetNotificationToastAction?
    ensures notification.Some? ==> a.notification == notification.value
    ensures notification.None? ==> a.notification == map[]
  {
    SetNotificationToastAction(notification.GetOr(map[]))
  }
}

=== FILE: app_navigator.dfy ===
/**
 The navigator's decisions: which routes the main stack registers once the
 bottom tabs are taken out, which icon a tab shows, and which root screens
 exist for a signed-in or signed-out user.
 */
module AppNavigator {
  import opened Wrappers
  import opened Entities
  import Seqs

  /** The keys of the route table, in insertion order, "Index" added last. */
  const RouteKeys: seq<string> := ["Sharing", "Edit", "Upload", "Gaming", "EditList", "Index"]

  /** The bottom tabs. */
  const TabNavs: seq<NavItem> := [
    NavItem(NumId(1), "Sharing", "Sharing", ["magnify", "magnify"], None),
    NavItem(NumId(2), "EditList", "Edit List", ["pencil", "pencil-outline"], None),
    NavItem(NumId(3), "Upload", "Upload", ["upload", "upload-outline"], None),
    NavItem(NumId(4), "Gaming", "SFS Gaming", ["youtube", "youtube"], None)
  ]

  function KeyOf(tab: NavItem): string {
    tab.key
  }

  /** The route keys the tabs occupy. */
  function TabKeys(tabs: seq<NavItem>): (r: seq<string>)
    ensures |r| == |tabs|
    ensures forall i :: 0 <= i < |tabs| ==> r[i] == tabs[i].key
  {
    Seqs.Map(tabs, KeyOf)
  }

  function NotIn(excluded: seq<string>): string -> bool {
    k => k !in excluded
  }

  /** `filteredRoutes`: the route keys left after deleting every tab's key. */
  function FilteredRoutes(routes: seq<string>, tabs: seq<NavItem>): (r: seq<string>)
    ensures forall i :: 0 <= i < |r| ==> r[i] in routes && r[i] !in TabKeys(tabs)
    ensures forall i :: 0 <= i < |routes| && routes[i] !in TabKeys(tabs) ==> routes[i] in r
    ensures Seqs.IsSubsequence(r, routes)
  {
    Seqs.Filter(routes, NotIn(TabKeys(tabs)))
  }

  /** The main stack registers exactly "Edit" and "Index". */
  lemma StackScreens()
    ensures FilteredRoutes(RouteKeys, TabNavs) == ["Edit", "Index"]
  {
    TabKeysValue();
    StackSuffix(0);
  }

  /** What the filter leaves of the route keys from position `i` on. */
  function StackSuffixValue(i: nat): seq<string> {
    if i <= 1 then ["Edit", "Index"] else if i <= 5 then ["Index"] else []
  }

  /** The filter over each suffix of the route keys, by induction from the end. */
  lemma {:induction false} StackSuffix(i: nat)
    requires i <= |RouteKeys|
    ensures Seqs.Filter(RouteKeys[i..], NotIn(["Sharing", "EditList", "Upload", "Gaming"])) == StackSuffixValue(i)
    decreases |RouteKeys| - i
  {
    var keep := NotIn(["Sharing", "EditList", "Upload", "Gaming"]);
    if i < |RouteKeys| {
      StackSuffix(i + 1);
      KeepFacts();
      assert RouteKeys[i..] == [RouteKeys[i]] + RouteKeys[i + 1..];
      Seqs.FilterCons(RouteKeys[i], RouteKeys[i + 1..], keep);
    }
  }

  /** Which route keys the tab keys exclude. */
  lemma KeepFacts()
    ensures var keep := NotIn(["Sharing", "EditList", "Upload", "Gaming"]);
      !keep("Sharing") && keep("Edit") && !keep("Upload") && !keep("Gaming") && !keep("EditList") && keep("Index")
  {
    assert "Edit" != "Sharing" && "Edit" != "EditList" && "Edit" != "Upload" && "Edit" != "Gaming";
    assert "Index" != "Sharing" && "Index" != "EditList" && "Index" != "Upload" && "Index" != "Gaming";
  }

  /** The tab keys, in tab order. */
  lemma TabKeysValue()
    ensures TabKeys(TabNavs) == ["Sharing", "EditList", "Upload", "Gaming"]
  {
  }

  /** Every tab's route is registered in the route table, so each tab screen has a component. */
  lemma TabsAreRoutes()
    ensures forall i :: 0 <= i < |TabNavs| ==> TabNavs[i].key in RouteKeys
  {
  }

  /** The icon of a tab: the first name when focused, the second otherwise; absent when the list is too short. */
  function TabIcon(tab: NavItem, focused: bool): (r: Option<string>)
    ensures focused ==> (r.Some? <==> |tab.icons| >= 1) && (r.Some? ==> r.value == tab.icons[0])
    ensures !focused ==> (r.Some? <==> |tab.icons| >= 2) && (r.Some? ==> r.value == tab.icons[1])
  {
    var i := if focused then 0 else 1;
    if i < |tab.icons| then Some(tab.icons[i]) else None
  }

  /** Every shipped tab has an icon in both states; the search and gaming tabs look the same either way. */
  lemma TabIconsDefined()
    ensures forall i, f :: 0 <= i < |TabNavs| ==> TabIcon(TabNavs[i], f).Some?
    ensures TabIcon(TabNavs[0], true) == TabIcon(TabNavs[0], false)
    ensures TabIcon(TabNavs[3], true) == TabIcon(TabNavs[3], false)
    ensures TabIcon(TabNavs[1], true) != TabIcon(TabNavs[1], false)
  {
  }

  /** A tab screen as registered: its name is the tab's label, its navigation key and component the tab's key. */
  datatype TabScreen = TabScreen(name: string, navigationKey: string, component: string)

  function ScreenOf(tab: NavItem): TabScreen {
    TabScreen(tab.tabLabel, tab.key, tab.key)
  }

  /** The tab navigator's screens, one per tab, in tab order. */
  function TabScreens(tabs: seq<NavItem>): (r: seq<TabScreen>)
    ensures |r| == |tabs|
    ensures forall i :: 0 <= i < |tabs| ==>
      r[i].name == tabs[i].tabLabel && r[i].navigationKey == tabs[i].key && r[i].component == tabs[i].key
  {
    Seqs.Map(tabs, ScreenOf)
  }

  /** The initial routes of the tab navigator, the main stack and the root stack. */
  const InitialTab := "Sharing"
  const MainInitial := "Index"
  const RootInitial := "Login"

  /** The initial tab names the first tab screen, and the main stack's initial route is registered. */
  lemma InitialRoutesRegistered()
    ensures TabScreens(TabNavs)[0].name == InitialTab
    ensures MainInitial in FilteredRoutes(RouteKeys, TabNavs)
  {
    StackScreens();
  }

  /** `user?.uid` is truthy. */
  predicate SignedIn(user: Option<User>) {
    user.Some? && user.value.uid != ""
  }

  /** The root stack's screens: "Main" for a signed-in user, else "Login" and "Signup". */
  function RootScreens(user: Option<User>): (r: seq<string>)
    ensures SignedIn(user) <==> r == ["Main"]
    ensures !SignedIn(user) <==> r == ["Login", "Signup"]
  {
    if SignedIn(user) then ["Main"] else ["Login", "Signup"]
  }

  /** The root's initial route is registered exactly when nobody is signed in. */
  lemma RootInitialOnlySignedOut(user: Option<User>)
    ensures RootInitial in RootScreens(user) <==> !SignedIn(user)
  {
  }

  /** A user with an empty uid is treated as signed out. */
  lemma EmptyUidSignedOut(u: User)
    requires u.uid == ""
    ensures RootScreens(Some(u)) == RootScreens(None)
  {
  }
}

=== FILE: app_reducer.dfy ===
/** The application slice of the store: drawer, active route, toast and notification. */
module AppReducer {
  import opened Wrappers
  import opened Entities
  import opened Actions
  import AppActions

  /** `notification` is absent until the first SET_NOTIFICATION_TOAST. */
  datatype AppState = AppState(
    toast: Option<Toast>,
    drawer: bool,
    activeRoute: Option<RouteInstance>,
    notification: Option<Notification>)

  /** The drawer starts closed, with no active route and no toast. */
  const InitialAppState := AppState(None, false, None, None)

  /**
   The application reducer. SHOW_TOAST replaces the toast;
   SET_NOTIFICATION_TOAST sets the notification; every other action leaves
   the state as it is. Drawer and active route are never changed here.
   */
  function Reduce(s: AppState, a: Action): (r: AppState)
    ensures a.ShowToastAction? ==> r.toast == Some(a.toast)
    ensures a.SetNotificationToastAction? ==> r.notification == Some(a.notification)
    ensures r.drawer == s.drawer && r.activeRoute == s.activeRoute
    ensures r.toast != s.toast ==> a.ShowToastAction?
    ensures r.notification != s.notification ==> a.SetNotificationToastAction?
  {
    match a
    case ShowToastAction(toast) => s.(toast := Some(toast))
    case SetNotificationToastAction(n) => s.(notification := Some(n))
    case _ => s
  }

  /** Showing the same toast twice is showing it once. */
  lemma ShowToastIdempotent(s: AppState, t: Toast)
    ensures Reduce(Reduce(s, ShowToastAction(t)), ShowToastAction(t)) == Reduce(s, ShowToastAction(t))
  {
  }

  /** A toast requested without a severity is stored as an error toast. */
  lemma SetToastDefaultsToError(s: AppState, info: ToastInfo)
    requires info.kind.None?
    ensures Reduce(s, AppActions.SetToast(info)).toast.Some?
    ensures Reduce(s, AppActions.SetToast(info)).toast.value.kind == Error
  {
  }
}

=== FILE: auth_actions.dfy ===
/** Action creators for the session slice. */
module AuthActions {
  import opened Wrappers
  import opened Entities
  import opened Actions

  /** The session action-type strings. */
  const Register := "REGISTER"
  const Login := "LOGIN"
  const UpdateLikedPosts := "UPDATE_LIKED_POSTS"
  const SetLoading := "SETLOADING"
  const AuthenticateType := "AUTHENTICATE"
  const UpdateUserInfo := "UPDATE_USER_INFO"
  const Logout := "LOGOUT"

  const AuthActionTypes := [Register, Login, UpdateLikedPosts, SetLoading, AuthenticateType, UpdateUserInfo, Logout]

  /** No two session action types share a string, so the reducer's switch cannot confuse them. */
  lemma ActionTypesDistinct()
    ensures forall i, j :: 0 <= i < j < |AuthActionTypes| ==> AuthActionTypes[i] != AuthActionTypes[j]
  {
  }

  /** The persistent-storage key of the saved session. */
  const UserDataKey := "userData"

  /** A request made to persistent storage alongside an action. */
  datatype StorageRequest = RemoveItem(key: string)

  /** `removeAuthUser()`: a LOGOUT action, plus removal of the saved session. */
  function RemoveAuthUser(): (r: (Action, StorageRequest))
    ensures r.0 == LogoutAction
    ensures r.1 == RemoveItem(UserDataKey)
  {
    (LogoutAction, RemoveItem(UserDataKey))
  }

  /**
   `authenticate(user, access_token)`: always a LOGIN, even for a null user;
   an omitted token (`None`) becomes the empty string.
   */
  function Authenticate(user: Option<User>, accessToken: Option<string>): (a: Action)
    ensures a.LoginAction?
    ensures a.user == user
    ensures accessToken.Some? ==> a.accessToken == accessToken.value
    ensures accessToken.None? ==> a.accessToken == ""
  {
    LoginAction(user, accessToken.GetOr(""))
  }

  /** `updateUserProfile(user)`: an UPDATE_USER_INFO carrying the user. */
  function UpdateUserProfile(user: User): (a: Action)
    ensures a.UpdateUserInfoAction? && a.profile == user
  {
    UpdateUserInfoAction(user)
  }
}

=== FILE: auth_reducer.dfy ===
/** The session slice of the store: the signed-in user and the API token. */
module AuthReducer {
  import opened Wrappers
  import opened Entities
  import opened Actions
  import AuthActions

  datatype AuthState = AuthState(user: Option<User>, accessToken: Option<string>)

  /** Before anything is dispatched, nobody is signed in and there is no token. */
  const InitialAuthState := AuthState(None, None)

  /**
   The session reducer. LOGIN sets user and token; LOGOUT clears the user
   only; UPDATE_USER_INFO replaces the user only; every other action leaves
   the state as it is.
   */
  function Reduce(s: AuthState, a: Action): (r: AuthState)
    ensures a.LoginAction? ==> r.user == a.user && r.accessToken == Some(a.accessToken)
    ensures a.LogoutAction? ==> r.user.None?
    ensures a.UpdateUserInfoAction? ==> r.user == Some(a.profile)
    ensures r.accessToken != s.accessToken ==> a.LoginAction?
    ensures r.user != s.user ==> a.LoginAction? || a.LogoutAction? || a.UpdateUserInfoAction?
  {
    match a
    case LoginAction(user, token) => s.(accessToken := Some(token), user := user)
    case LogoutAction => s.(user := InitialAuthState.user)
    case UpdateUserInfoAction(user) => s.(user := Some(user))
    case _ => s
  }

  /** Dispatching the same LOGIN twice is dispatching it once. */
  lemma LoginIdempotent(s: AuthState, a: Action)
    requires a.LoginAction?
    ensures Reduce(Reduce(s, a), a) == Reduce(s, a)
  {
  }

  /** The outcome of a LOGIN does not depend on the state it was applied to. */
  lemma LoginForgetsPrevious(s: AuthState, t: AuthState, a: Action)
    requires a.LoginAction?
    ensures Reduce(s, a) == Reduce(t, a)
  {
  }

  /**
   `authenticate(null)` is a LOGIN, not a LOGOUT: it clears the user and
   also overwrites the token with the empty string.
   */
  lemma AuthenticateNull(s: AuthState)
    ensures Reduce(s, AuthActions.Authenticate(None, None)) == AuthState(None, Some(""))
  {
  }

  /** Logging out after logging in keeps the token that LOGIN stored. */
  lemma LogoutKeepsToken(s: AuthState, u: User, token: string)
    ensures Reduce(Reduce(s, AuthActions.Authenticate(Some(u), Some(token))), AuthActions.RemoveAuthUser().0)
         == AuthState(None, Some(token))
  {
  }

  /** A profile update after login keeps the login's token and shows the new profile. */
  lemma UpdateAfterLogin(s: AuthState, u: User, v: User, token: string)
    ensures Reduce(Reduce(s, AuthActions.Authenticate(Some(u), Some(token))), AuthActions.UpdateUserProfile(v))
         == AuthState(Some(v), Some(token))
  {
  }
}

=== FILE: button.dfy ===
/** The button's controller logic: loader state, disabled flag, press guard and colours. */
module Button {
  import opened Wrappers
  import opened Entities
  import Text

  /** Props as a caller may pass them; absent flags fall back to the defaults. */
  datatype RawProps = RawProps(disabled: Option<bool>, outline: Option<bool>, styleColor: Option<string>, styleBackground: Option<string>)

  /** Props after defaults are applied. */
  datatype Props = Props(disabled: bool, outline: bool, styleColor: Option<string>, styleBackground: Option<string>)

  /** The default props: not disabled, not outlined. */
  function WithDefaults(raw: RawProps): (p: Props)
    ensures raw.disabled.None? ==> !p.disabled
    ensures raw.outline.None? ==> !p.outline
    ensures raw.disabled.Some? ==> p.disabled == raw.disabled.value
    ensures raw.outline.Some? ==> p.outline == raw.outline.value
    ensures p.styleColor == raw.styleColor && p.styleBackground == raw.styleBackground
  {
    Props(raw.disabled.GetOr(false), raw.outline.GetOr(false), raw.styleColor, raw.styleBackground)
  }

  datatype ButtonState = ButtonState(loader: bool)

  const InitialState := ButtonState(false)

  /** `showLoader(state)`: the argument defaults to true. */
  function ShowLoader(s: ButtonState, arg: Option<bool>): (r: ButtonState)
    ensures arg.None? ==> r.loader
    ensures arg.Some? ==> r.loader == arg.value
  {
    ButtonState(arg.GetOr(true))
  }

  /** `isLoading()` reports the loader state last set. */
  lemma IsLoadingReflectsLastCall(s: ButtonState, arg: Option<bool>)
    ensures ShowLoader(s, arg).loader <==> arg != Some(false)
  {
  }

  /** `isDisabled()`; the touchable uses the same condition. */
  function IsDisabled(p: Props, s: ButtonState): (r: bool)
    ensures r <==> p.disabled || s.loader
  {
    p.disabled || s.loader
  }

  /** The touchable's `disabled` prop. */
  function TouchableDisabled(p: Props, s: ButtonState): (r: bool)
    ensures r == IsDisabled(p, s)
  {
    p.disabled || s.loader
  }

  /** The guard of `press` as written: it forwards unless the button is both disabled and loading. */
  function PressForwardsAsWritten(p: Props, s: ButtonState): (r: bool)
    ensures !r <==> p.disabled && s.loader
  {
    !p.disabled || !s.loader
  }

  /** As written, `press` reaches the handler of a button that reports itself disabled. */
  lemma PressGuardLetsDisabledThrough()
    ensures var p := Props(true, false, None, None);
      PressForwardsAsWritten(p, InitialState) && IsDisabled(p, InitialState)
  {
  }

  /** The guard `press` evidently means: forward exactly when the button is not disabled. */
  function PressForwards(p: Props, s: ButtonState): (r: bool)
    ensures r <==> !IsDisabled(p, s)
    ensures r <==> !TouchableDisabled(p, s)
  {
    !(p.disabled || s.loader)
  }

  /** The two guards disagree exactly on a disabled button that is not loading, or a loading one that is not disabled. */
  lemma PressGuardsDiffer(p: Props, s: ButtonState)
    ensures PressForwardsAsWritten(p, s) != PressForwards(p, s) <==> p.disabled != s.loader
  {
  }

  /**
   The text and icon colour: the styled colour when both a background and
   a colour are styled; otherwise, for an outline button, the styled colour
   or the theme's primary; otherwise the theme's black.
   */
  function ContentColor(p: Props, theme: Theme): (r: string)
    ensures Text.TruthyOpt(p.styleBackground) && Text.TruthyOpt(p.styleColor) ==> r == p.styleColor.value
    ensures !(Text.TruthyOpt(p.styleBackground) && Text.TruthyOpt(p.styleColor)) && p.outline ==>
      r == Text.OrElse(p.styleColor, theme.primary)
    ensures !(Text.TruthyOpt(p.styleBackground) && Text.TruthyOpt(p.styleColor)) && !p.outline ==> r == theme.black
  {
    if Text.TruthyOpt(p.styleBackground) && Text.TruthyOpt(p.styleColor) then p.styleColor.value
    else if p.outline then Text.OrElse(p.styleColor, theme.primary)
    else theme.black
  }

  /** An unstyled plain button is black on the primary colour; an unstyled outline button is primary on transparent. */
  lemma UnstyledColours(theme: Theme)
    ensures ContentColor(Props(false, false, None, None), theme) == theme.black
    ensures BackgroundColor(Props(false, false, None, None), theme) == theme.primary
    ensures ContentColor(Props(false, true, None, None), theme) == theme.primary
    ensures BackgroundColor(Props(false, true, None, None), theme) == "transparent"
  {
  }

  /** The container background: transparent for outline buttons, else the styled colour or primary. */
  function BackgroundColor(p: Props, theme: Theme): (r: string)
    ensures p.outline ==> r == "transparent"
    ensures !p.outline ==> r == Text.OrElse(p.styleColor, theme.primary)
  {
    if p.outline then "transparent" else Text.OrElse(p.styleColor, theme.primary)
  }

  /** The border: the styled colour or primary. */
  function BorderColor(p: Props, theme: Theme): (r: string)
    ensures Text.TruthyOpt(p.styleColor) ==> r == p.styleColor.value
    ensures !Text.TruthyOpt(p.styleColor) ==> r == theme.primary
  {
    Text.OrElse(p.styleColor, theme.primary)
  }

  /**
   The fill the button is drawn with: the caller's `style` comes last in the
   touchable's style list, so a styled background replaces the stylesheet's
   container colour.
   */
  function RenderedBackground(p: Props, theme: Theme): (r: string)
    ensures p.styleBackground.Some? ==> r == p.styleBackground.value
    ensures p.styleBackground.None? ==> r == BackgroundColor(p, theme)
  {
    match p.styleBackground
    case Some(b) => b
    case None => BackgroundColor(p, theme)
  }

  /**
   How the colours relate for every button. In the stylesheet an outline
   button's text takes its border colour over a transparent container, and
   any other button's container takes its border colour. As drawn, a button
   without a styled background shows that container colour, with black text
   unless it is an outline button; one with both a styled background and a
   styled colour shows the styled colour on the styled background.
   */
  lemma ColoursFollowBorder(p: Props, theme: Theme)
    ensures p.outline ==> ContentColor(p, theme) == BorderColor(p, theme) && BackgroundColor(p, theme) == "transparent"
    ensures !p.outline ==> BackgroundColor(p, theme) == BorderColor(p, theme)
    ensures p.styleBackground.None? ==> RenderedBackground(p, theme) == (if p.outline then "transparent" else BorderColor(p, theme))
    ensures p.styleBackground.None? && !p.outline ==> ContentColor(p, theme) == theme.black
    ensures Text.TruthyOpt(p.styleBackground) && Text.TruthyOpt(p.styleColor) ==>
      ContentColor(p, theme) == p.styleColor.value && RenderedBackground(p, theme) == p.styleBackground.value
  {
  }
}

=== FILE: collection_item.dfy ===
/**
 A shared blueprint's list row: the like/dislike vote toggle, the
 displayed vote counts and the OPEN button.
 */
module CollectionItem {
  import opened Wrappers
  import opened Entities
  import opened Seqs
  import Text

  /** The predicate `v => v !== uid` the handlers filter with. */
  function OtherThan(uid: Uid): Uid -> bool {
    v => v != uid
  }

  /**
   The read-modify-write on a voter list: remove every occurrence of `uid`
   if it is there, otherwise append it at the end.
   */
  function Toggle(values: seq<Uid>, uid: Uid): (r: seq<Uid>)
    ensures uid in r <==> uid !in values
    ensures forall i :: 0 <= i < |r| && r[i] != uid ==> r[i] in values
    ensures forall i :: 0 <= i < |values| && values[i] != uid ==> values[i] in r
    ensures uid !in values ==> r == values + [uid]
  {
    if uid in values then Filter(values, OtherThan(uid)) else values + [uid]
  }

  /** The other voters keep their relative order: the toggle only moves `uid`. */
  lemma ToggleKeepsOthers(values: seq<Uid>, uid: Uid)
    ensures Filter(Toggle(values, uid), OtherThan(uid)) == Filter(values, OtherThan(uid))
  {
    if uid in values {
      FilterIdempotent(values, OtherThan(uid));
    } else {
      FilterConcat(values, [uid], OtherThan(uid));
    }
  }

  /** Removal deletes every occurrence of `uid` and keeps every other vote as often as it was cast. */
  lemma ToggleRemovesAll(values: seq<Uid>, uid: Uid)
    requires uid in values
    ensures multiset(Toggle(values, uid)) == multiset(values)[uid := 0]
  {
    var r := Toggle(values, uid);
    FilterMultiplicity(values, OtherThan(uid));
    forall x
      ensures multiset(r)[x] == multiset(values)[uid := 0][x]
    {
      if x in values {
        var i :| 0 <= i < |values| && values[i] == x;
        assert multiset(r)[values[i]] == if OtherThan(uid)(values[i]) then multiset(values)[values[i]] else 0;
      } else {
        assert x !in r;
      }
    }
  }

  /** Voting twice from a list without `uid` restores the list. */
  lemma ToggleTwiceRestores(values: seq<Uid>, uid: Uid)
    requires uid !in values
    ensures Toggle(Toggle(values, uid), uid) == values
  {
    FilterConcat(values, [uid], OtherThan(uid));
    FilterAll(values, OtherThan(uid));
  }

  /** Which button was pressed. */
  datatype Vote = Like | Dislike

  /** The child of the record a vote reads and writes. */
  function VoterField(vote: Vote): string {
    match vote
    case Like => "likers"
    case Dislike => "dislikers"
  }

  /** A write of a voter list to the realtime database. */
  datatype DbWrite = DbWrite(path: seq<string>, values: seq<Uid>)

  /** What a vote handler does: the database write, if any, and the icon loader values it sets, in order. */
  datatype VoteOutcome = VoteOutcome(write: Option<DbWrite>, loaderCalls: seq<bool>)

  /**
   `onLike` / `onDislike`, given the value the database holds at the
   voter path (`None` when it holds nothing). Without a signed-in user
   nothing is written; a missing list counts as empty. The loader is
   switched on, then off, in both cases.
   */
  function OnVote(vote: Vote, user: Option<User>, item: BpsInfo, stored: Option<seq<Uid>>): (r: VoteOutcome)
    ensures r.loaderCalls == [true, false]
    ensures r.write.None? <==> user.None?
    ensures r.write.Some? ==> r.write.value.path == [BpsKey, item.key, VoterField(vote)]
    ensures r.write.Some? ==>
      (user.value.uid in r.write.value.values <==> user.value.uid !in stored.GetOr([]))
    ensures r.write.Some? ==> r.write.value.values == Toggle(stored.GetOr([]), user.value.uid)
  {
    match user
    case None => VoteOutcome(None, [true, false])
    case Some(u) =>
      var path := [BpsKey, item.key, VoterField(vote)];
      VoteOutcome(Some(DbWrite(path, Toggle(stored.GetOr([]), u.uid))), [true, false])
  }

  /** Liking and disliking write different children of the same record. */
  lemma VotesTouchSeparateLists(u: User, item: BpsInfo, s1: Option<seq<Uid>>, s2: Option<seq<Uid>>)
    ensures OnVote(Like, Some(u), item, s1).write.value.path != OnVote(Dislike, Some(u), item, s2).write.value.path
  {
    assert OnVote(Like, Some(u), item, s1).write.value.path[2] == "likers";
    assert OnVote(Dislike, Some(u), item, s2).write.value.path[2] == "dislikers";
  }

  /** The vote count shown: `list?.length || "0"` is the length, or the text "0". */
  datatype CountLabel = CountNumber(n: nat) | CountZeroText

  function CountLabelOf(list: Option<seq<Uid>>): (r: CountLabel)
    ensures r.CountZeroText? <==> (list.None? || list.value == [])
    ensures r.CountNumber? ==> r.n == |list.value| && r.n > 0
  {
    if list.Some? && |list.value| > 0 then CountNumber(|list.value|) else CountZeroText
  }

  /** The characters a count label renders as. */
  function Rendered(c: CountLabel): string {
    match c
    case CountNumber(n) => Text.NatToString(n)
    case CountZeroText => "0"
  }

  /** Either way the label reads as the decimal number of voters, a missing list counting as none. */
  lemma CountReadsAsLength(list: Option<seq<Uid>>)
    ensures Rendered(CountLabelOf(list)) == Text.NatToString(|list.GetOr([])|)
  {
  }

  /** The OPEN button's handler: the link to open, only when it is non-empty. */
  function OnOpen(item: BpsInfo): (r: Option<string>)
    ensures r.Some? <==> item.bpLink != ""
    ensures r.Some? ==> r.value == item.bpLink
  {
    if Text.Truthy(item.bpLink) then Some(item.bpLink) else None
  }

  /** The OPEN button is disabled exactly when pressing it would open nothing. */
  function OpenDisabled(item: BpsInfo): (r: bool)
    ensures r <==> OnOpen(item).None?
  {
    !Text.Truthy(item.bpLink)
  }
}

=== FILE: edit_blueprint_list.dfy ===
/** The local blueprint-file list: directory entry names, filtered by the search box. */
module EditBlueprintList {
  import opened Wrappers
  import opened Entities
  import opened Seqs
  import Search
  import Text
  import Navigation

  /** An entry of a directory listing; only its name is used. */
  datatype DirEntry = DirEntry(name: string, path: string, isFile: bool)

  function EntryName(d: DirEntry): string {
    d.name
  }

  /** `dirs.map(dir => dir.name)`: the listing is the entry names, in order. */
  function Listing(dirs: seq<DirEntry>): (r: seq<string>)
    ensures |r| == |dirs|
    ensures forall i :: 0 <= i < |dirs| ==> r[i] == dirs[i].name
  {
    Map(dirs, EntryName)
  }

  function Identity(name: string): string {
    name
  }

  /** `data?.filter(filterItem) || []`: no data yet lists nothing. */
  function Listed(data: Option<seq<string>>, search: string): (r: seq<string>)
    ensures data.None? ==> r == []
    ensures data.Some? && search == "" ==> r == data.value
    ensures data.Some? ==> forall i :: 0 <= i < |r| ==> r[i] in data.value && Search.Matches(r[i], search)
    ensures data.Some? ==> forall n :: n in data.value && Search.Matches(n, search) ==> n in r
    ensures data.Some? ==> IsSubsequence(r, data.value)
    ensures data.Some? ==> forall i {:trigger multiset(r)[data.value[i]]} :: 0 <= i < |data.value| ==>
      multiset(r)[data.value[i]] == if Search.Matches(data.value[i], search) then multiset(data.value)[data.value[i]] else 0
  {
    match data
    case None => []
    case Some(names) => Search.SearchFilter(names, Identity, search)
  }

  /** Searches that differ only in letter case list the same files. */
  lemma ListedCaseInsensitive(data: Option<seq<string>>, s1: string, s2: string)
    requires Text.ToLower(s1) == Text.ToLower(s2)
    ensures Listed(data, s1) == Listed(data, s2)
  {
    if data.Some? {
      Search.SearchCaseInsensitive(data.value, Identity, s1, s2);
    }
  }

  /** Choosing a file opens the editor on that name, as a blueprint. */
  function OnSelect(name: string): (r: Navigation.NavRequest)
    ensures r.route == "Edit"
    ensures r.params == Navigation.EditParams(name, Blueprint)
  {
    Navigation.Navigate("Edit", Navigation.EditParams(name, Blueprint))
  }
}

=== FILE: entities.dfy ===
/**
 The records the client passes around: users, shared blueprints, gaming
 videos, toasts, navigation items and the theme, with the enumerations
 and storage keys they use.
 */
module Entities {
  import opened Wrappers

  /** A signed-in user's identifier. */
  type Uid = string

  /** A user profile: identifier, display name and photo URL. */
  datatype User = User(uid: Uid, displayName: Option<string>, photoURL: Option<string>)

  /** Toast severities; each is a non-empty string in the source, so always truthy. */
  datatype ToastType = Primary | Secondary | Success | Error | Warn | Dark

  /** The string value of each severity. */
  function ToastTypeName(t: ToastType): (r: string)
    ensures r != ""
  {
    match t
    case Primary => "primary"
    case Secondary => "secondary"
    case Success => "success"
    case Error => "error"
    case Warn => "warn"
    case Dark => "iconBackground"
  }

  /** The icon families a toast or tab may name. */
  datatype IconType =
    | AntDesign | Entypo | EvilIcons | Feather | Fontisto | FontAwesome | FontAwesome5
    | FontAwesome5Pro | Foundation | Ionicons | MaterialCommunityIcons | MaterialIcons
    | Octicons | SimpleLineIcons | Zocial

  /** A toast as requested by a caller: the severity may be left out. */
  datatype ToastInfo = ToastInfo(
    title: string,
    text: string,
    kind: Option<ToastType>,
    icon: Option<string>,
    iconType: Option<IconType>)

  /** A toast as stored in the application state: the severity is always set. */
  datatype Toast = Toast(
    title: string,
    text: string,
    kind: ToastType,
    icon: Option<string>,
    iconType: Option<IconType>)

  /** The payload of a notification toast: an arbitrary string-keyed object. */
  type Notification = map<string, string>

  /** A drawer route. */
  datatype RouteInstance = RouteInstance(link: string, title: string, iconName: IconType, menu: bool)

  /** A navigation item's identifier, a number or a string. */
  datatype NavId = NumId(n: int) | StrId(s: string)

  /** A bottom-tab entry: the route key, its label (`tabLabel`) and its focused/unfocused icon names. */
  datatype NavItem = NavItem(id: NavId, key: string, tabLabel: string, icons: seq<string>, iconType: Option<IconType>)

  /** A shared blueprint record, with its optional voter lists. */
  datatype BpsInfo = BpsInfo(
    date: string,
    image: string,
    key: string,
    bpLink: string,
    likers: Option<seq<Uid>>,
    dislikers: Option<seq<Uid>>,
    name: string,
    ownerUid: Uid)

  /** A community gaming-video record. */
  datatype GamingBps = GamingBps(date: string, image: string, key: string, name: string, video: string)

  /** Which kind of local file the editor opens. */
  datatype EditType = Planet | Blueprint

  /** The part of the theme configuration the modelled logic reads. */
  datatype Theme = Theme(kind: string, primary: string, black: string)

  /** The only theme the client ships. */
  const DarkTheme := Theme("Dark", "#FFA000", "#000000")

  /** Realtime-database and storage keys. */
  const BpsKey := "bps"
  const GamingBpsKey := "sfsgbps"
  const PlanetListKey := "sfsplanets"
}

=== FILE: gaming_video_list.dfy ===
/** The community gaming-video list, filtered by its search box. */
module GamingVideoList {
  import opened Wrappers
  import opened Entities
  import Search
  import Text

  function NameOf(item: GamingBps): string {
    item.name
  }

  /** The videos listed do not depend on the letter case of the search. */
  lemma VideosCaseInsensitive(data: Option<seq<(string, GamingBps)>>, s1: string, s2: string)
    requires Text.ToLower(s1) == Text.ToLower(s2)
    ensures Search.ValuesListed(data, NameOf, s1) == Search.ValuesListed(data, NameOf, s2)
  {
    Search.ValuesListedCaseInsensitive(data, NameOf, s1, s2);
  }

  /** While loading, the view does not depend on the search; afterwards, it tells every two searches apart. */
  lemma EmptyViewIdentifiesSearch(s1: string, s2: string)
    ensures Search.EmptyView(true, s1) == Search.EmptyView(true, s2)
    ensures Search.EmptyView(false, s1) == Search.EmptyView(false, s2) ==> s1 == s2
  {
    if Search.EmptyView(false, s1) == Search.EmptyView(false, s2) {
      Search.NoResultMessageInjective(s1, s2);
    }
  }
}

=== FILE: input.dfy ===
/**
 The text input's controller state: the value reference behind the
 imperative `value()` accessor, the error text and the remaining-character
 counter. Rendering is not modelled.
 */
module Input {
  import opened Wrappers
  import Text

  /** `stored` is the value reference, `remaining` the characters-remaining counter. */
  datatype InputState = InputState(stored: string, error: string, remaining: int)

  /** A character limit is in force when `characters` is present and non-zero. */
  predicate HasLimit(characters: Option<int>) {
    characters.Some? && characters.value != 0
  }

  /** A fresh input: empty value, no error, and `characters || 0` remaining. */
  function Init(characters: Option<int>): (s: InputState)
    ensures s.stored == "" && s.error == ""
    ensures s.remaining == characters.GetOr(0)
  {
    InputState("", "", if HasLimit(characters) then characters.value else 0)
  }

  /** The effect of one `value(v)` call: the new state, what it returns, and the text pushed to the native field, if any. */
  datatype ValueCall = ValueCall(state: InputState, returned: string, nativeText: Option<string>)

  /**
   `value(v)`: a non-empty `v` is trimmed and stored; an empty or missing
   `v` changes nothing. It returns the stored value, else the `value`
   prop, else "".
   */
  function Value(s: InputState, v: Option<string>, prop: Option<string>): (r: ValueCall)
    ensures Text.TruthyOpt(v) ==> r.state == s.(stored := Text.Trim(v.value)) && r.nativeText == Some(Text.Trim(v.value))
    ensures !Text.TruthyOpt(v) ==> r.state == s && r.nativeText.None?
    ensures r.state.stored != "" ==> r.returned == r.state.stored
    ensures r.state.stored == "" ==> r.returned == Text.OrElse(prop, "")
  {
    var s' := if Text.TruthyOpt(v) then s.(stored := Text.Trim(v.value)) else s;
    var native := if Text.TruthyOpt(v) then Some(Text.Trim(v.value)) else None;
    ValueCall(s', if Text.Truthy(s'.stored) then s'.stored else Text.OrElse(prop, ""), native)
  }

  /** Reading after `value(v)` gives `v` without surrounding white space, unless `v` is all white space. */
  lemma ValueThenRead(s: InputState, v: string, prop: Option<string>)
    requires v != ""
    ensures Text.Trim(v) != "" ==> Value(Value(s, Some(v), prop).state, None, prop).returned == Text.Trim(v)
    ensures Text.Trim(v) == "" ==> Value(Value(s, Some(v), prop).state, None, prop).returned == Text.OrElse(prop, "")
  {
  }

  /** A value set through the accessor is already trimmed: setting it again changes nothing. */
  lemma ValueSetIdempotent(s: InputState, v: string, prop: Option<string>)
    requires Text.Trim(v) != ""
    ensures Value(Value(s, Some(v), prop).state, Some(Text.Trim(v)), prop).state == Value(s, Some(v), prop).state
  {
    Text.TrimIdempotent(v);
  }

  /** The effect of typing: the new state and the text handed on to the caller's `onChangeText`. */
  datatype Change = Change(state: InputState, forwarded: string)

  /**
   `onChangeText(t)`: the raw text is stored untrimmed, the error is
   cleared, and with a limit the remaining count becomes `characters`
   minus the text's UTF-16 length, which may be negative.
   */
  function OnChangeText(s: InputState, t: string, characters: Option<int>): (r: Change)
    ensures r.state.stored == t && r.state.error == "" && r.forwarded == t
    ensures HasLimit(characters) ==> r.state.remaining == characters.value - Text.Utf16Length(t)
    ensures HasLimit(characters) ==> characters.value - 2 * |t| <= r.state.remaining <= characters.value - |t|
    ensures !HasLimit(characters) ==> r.state.remaining == s.remaining
  {
    var remaining := if HasLimit(characters) then characters.value - Text.Utf16Length(t) else s.remaining;
    Change(InputState(t, "", remaining), t)
  }

  /** Typing past the limit drives the counter below zero. */
  lemma RemainingMayBeNegative(s: InputState)
    ensures OnChangeText(s, "abcd", Some(3)).state.remaining == -1
  {
  }

  /** A character beyond the Basic Multilingual Plane, such as an emoji, uses up two of the limit. */
  lemma AstralCharCountsTwice(s: InputState)
    ensures OnChangeText(s, "\U{1F600}", Some(10)).state.remaining == 8
  {
  }

  /** Without characters beyond the Basic Multilingual Plane, the counter is the limit minus the number of characters. */
  lemma RemainingCountsCharacters(s: InputState, t: string, limit: int)
    requires limit != 0
    requires forall i :: 0 <= i < |t| ==> t[i] as int < 0x10000
    ensures OnChangeText(s, t, Some(limit)).state.remaining == limit - |t|
  {
    Text.Utf16LengthOfBmp(t);
  }

  /** Typed text is read back as typed, white space included. */
  lemma TypedTextReadsRaw(s: InputState, t: string, characters: Option<int>, prop: Option<string>)
    requires t != ""
    ensures Value(OnChangeText(s, t, characters).state, None, prop).returned == t
  {
  }

  /**
   The `value` prop effect. React runs it on mount (`previous` is `None`)
   and after a render whose prop differs from the previous render's. When
   it runs, a non-empty prop that differs from the stored value overwrites
   it untrimmed, and the native field shows it trimmed.
   */
  function SyncValueProp(s: InputState, previous: Option<Option<string>>, prop: Option<string>): (r: ValueCall)
    ensures previous == Some(prop) ==> r.state == s && r.nativeText.None?
    ensures previous != Some(prop) && Text.TruthyOpt(prop) && s.stored != prop.value ==>
      r.state == s.(stored := prop.value) && r.nativeText == Some(Text.Trim(prop.value))
    ensures previous != Some(prop) && !(Text.TruthyOpt(prop) && s.stored != prop.value) ==>
      r.state == s && r.nativeText.None?
    ensures r.returned == r.state.stored
  {
    if previous != Some(prop) && Text.TruthyOpt(prop) && s.stored != prop.value then
      ValueCall(s.(stored := prop.value), prop.value, Some(Text.Trim(prop.value)))
    else ValueCall(s, s.stored, None)
  }

  /** A re-render with the same prop keeps what the user typed. */
  lemma RerenderKeepsTypedText(s: InputState, t: string, characters: Option<int>, prop: Option<string>)
    ensures SyncValueProp(OnChangeText(s, t, characters).state, Some(prop), prop).state.stored == t
  {
  }

  /** Once a new non-empty prop has been synced, reading the input gives the prop. */
  lemma SyncThenRead(s: InputState, previous: Option<Option<string>>, prop: Option<string>)
    requires previous != Some(prop) && Text.TruthyOpt(prop)
    ensures Value(SyncValueProp(s, previous, prop).state, None, prop).returned == prop.value
  {
  }

  /** Once the effect has run for a prop, running it again for the same prop changes nothing more. */
  lemma SyncTwiceIsOnce(s: InputState, p1: Option<Option<string>>, p2: Option<Option<string>>, prop: Option<string>)
    requires p1 != Some(prop)
    ensures SyncValueProp(SyncValueProp(s, p1, prop).state, p2, prop).state == SyncValueProp(s, p1, prop).state
  {
  }
}

=== FILE: login.dfy ===
/** The sign-in screen's submit handler and the handling of its outcome. */
module Login {
  import opened Wrappers
  import opened Entities
  import opened Actions
  import opened Validation
  import Text
  import AuthActions
  import AuthReducer
  import Navigation
  import Signup
  import Button

  datatype LoginRequest = LoginRequest(email: string, password: string)

  /**
   `loginHandler` up to the backend call: nothing when the button is
   disabled; otherwise email empty, email invalid and password empty are
   checked in that order and the first failure is reported. There is no
   confirmation check.
   */
  function HandleLogin(buttonDisabled: bool, email: string, password: string, isEmail: string -> bool): (r: Step<LoginRequest>)
    ensures buttonDisabled <==> r.Ignored?
    ensures r.Proceed? <==> !buttonDisabled && email != "" && isEmail(email) && password != ""
    ensures r.Proceed? ==> r.request == LoginRequest(email, password)
  {
    if buttonDisabled then Ignored
    else if !Text.Truthy(email) then FieldError(EmailField, Signup.EmailEmpty)
    else if !isEmail(email) then FieldError(EmailField, Signup.EmailInvalid)
    else if !Text.Truthy(password) then FieldError(PasswordField, Signup.PasswordEmpty)
    else Proceed(LoginRequest(email, password))
  }

  /** The sign-in checks as an ordered chain. */
  function Checks(email: string, password: string, isEmail: string -> bool): seq<Check> {
    [ Check(!Text.Truthy(email), EmailField, Signup.EmailEmpty),
      Check(!isEmail(email), EmailField, Signup.EmailInvalid),
      Check(!Text.Truthy(password), PasswordField, Signup.PasswordEmpty) ]
  }

  /** The handler's nested conditions are exactly "first failing check of the chain wins". */
  lemma HandleLoginIsFirstFailure(email: string, password: string, isEmail: string -> bool)
    ensures HandleLogin(false, email, password, isEmail)
         == Decide(Checks(email, password, isEmail), LoginRequest(email, password))
  {
    var c := Checks(email, password, isEmail);
    var f := FirstFailure(c);
    if !Text.Truthy(email) {
      assert f == Some(0);
    } else if !isEmail(email) {
      assert !c[0].failed && c[1].failed;
      assert f == Some(1);
    } else if !Text.Truthy(password) {
      assert !c[0].failed && !c[1].failed && c[2].failed;
      assert f == Some(2);
    } else {
      assert f == None;
    }
  }

  /** Every error sign-in reports, sign-up reports too for the same email and password. */
  lemma LoginErrorsAreSignupErrors(disabled: bool, email: string, name: string, password: string,
                                   confirm: string, isEmail: string -> bool)
    requires HandleLogin(disabled, email, password, isEmail).FieldError?
    ensures Signup.Register(disabled, email, name, password, confirm, isEmail).FieldError?
    ensures Signup.Register(disabled, email, name, password, confirm, isEmail).field
         == HandleLogin(disabled, email, password, isEmail).field
    ensures Signup.Register(disabled, email, name, password, confirm, isEmail).message
         == HandleLogin(disabled, email, password, isEmail).message
  {
  }

  /** Once the sign-in button's loader is on, a second submit is ignored. */
  lemma SubmitIgnoredWhileLoading(p: Button.Props, s: Button.ButtonState, email: string, password: string,
                                  isEmail: string -> bool)
    ensures HandleLogin(Button.IsDisabled(p, Button.ShowLoader(s, None)), email, password, isEmail).Ignored?
  {
  }

  /** The backend's answer to a sign-in. */
  datatype SignInResult = SignedIn(user: User) | SignInFailed(code: string)

  /** What follows the backend call. */
  datatype Effects = Effects(dispatched: Option<Action>, navigation: Option<Navigation.NavRequest>, loaderCalls: seq<bool>)

  const UserNotFound := "auth/user-not-found"

  /**
   On success the user is authenticated; an `auth/user-not-found` failure
   opens Signup carrying the email; any other failure is ignored. The
   loader is cleared whatever happened.
   */
  function AfterSignIn(email: string, result: SignInResult): (r: Effects)
    ensures r.loaderCalls == [true, false]
    ensures r.dispatched.Some? <==> result.SignedIn?
    ensures result.SignedIn? ==> r.dispatched == Some(LoginAction(Some(result.user), ""))
    ensures r.navigation.Some? <==> result.SignInFailed? && result.code == UserNotFound
    ensures r.navigation.Some? ==> r.navigation.value == Navigation.Navigate("Signup", Navigation.SignupParams(email))
  {
    match result
    case SignedIn(user) => Effects(Some(AuthActions.Authenticate(Some(user), None)), None, [true, false])
    case SignInFailed(code) =>
      if code == UserNotFound then
        Effects(None, Some(Navigation.Navigate("Signup", Navigation.SignupParams(email))), [true, false])
      else Effects(None, None, [true, false])
  }

  /** Whatever the session was, dispatching a successful sign-in's action signs that user in with an empty token. */
  lemma SignInSignsUserIn(s: AuthReducer.AuthState, email: string, user: User)
    ensures AfterSignIn(email, SignedIn(user)).dispatched.Some?
    ensures AuthReducer.Reduce(s, AfterSignIn(email, SignedIn(user)).dispatched.value)
         == AuthReducer.AuthState(Some(user), Some(""))
  {
  }
}

=== FILE: navigation.dfy ===
/** Requests to the navigation container (`navigate(name, params)`). */
module Navigation {
  import opened Entities

  /** The parameters a screen is opened with. */
  datatype RouteParams =
    | NoParams
    | EditParams(name: string, editType: EditType)
    | SignupParams(email: string)

  datatype NavRequest = Navigate(route: string, params: RouteParams)
}

=== FILE: planet_explorer.dfy ===
/** The local planet-file list: like the blueprint list, but names are shown without `.txt`. */
module PlanetExplorer {
  import opened Wrappers
  import opened Entities
  import opened Seqs
  import Search
  import Text
  import Navigation

  function Identity(name: string): string {
    name
  }

  const TxtSuffix := ".txt"

  /** `name.replace('.txt', '')`: only the first `.txt`, wherever it is, is removed. */
  function DisplayName(name: string): (r: string)
    ensures Text.IndexOf(name, TxtSuffix).None? ==> r == name
    ensures Text.IndexOf(name, TxtSuffix).Some? ==>
      var i := Text.IndexOf(name, TxtSuffix).value;
      r == name[..i] + name[i + 4..] && |r| == |name| - 4
  {
    Text.ReplaceFirst(name, TxtSuffix, "")
  }

  /** A name is displayed as it is exactly when it contains no `.txt`. */
  lemma DisplayNameUnchangedIff(name: string)
    ensures DisplayName(name) == name <==> !Text.Contains(name, TxtSuffix)
  {
    if Text.IndexOf(name, TxtSuffix).Some? {
      assert |DisplayName(name)| != |name|;
    }
  }

  /** Worked case: the extension is removed. */
  lemma DisplayNameStripsExtension()
    ensures DisplayName("Earth.txt") == "Earth"
  {
    var e := "Earth.txt";
    assert e[5..9] == TxtSuffix;
    Text.IndexOfFromHit(e, TxtSuffix, 5);
    Text.IndexOfFromSkip(e, TxtSuffix, 4);
    Text.IndexOfFromSkip(e, TxtSuffix, 3);
    Text.IndexOfFromSkip(e, TxtSuffix, 2);
    Text.IndexOfFromSkip(e, TxtSuffix, 1);
    Text.IndexOfFromSkip(e, TxtSuffix, 0);
    assert Text.IndexOf(e, TxtSuffix) == Some(5);
    assert e[..5] + "" + e[9..] == "Earth";
  }

  /** Worked case: of two `.txt`, only the first is removed. */
  lemma DisplayNameStripsFirstOnly()
    ensures DisplayName("a.txt.txt") == "a.txt"
  {
    var a := "a.txt.txt";
    assert a[1..5] == TxtSuffix;
    Text.IndexOfFromHit(a, TxtSuffix, 1);
    Text.IndexOfFromSkip(a, TxtSuffix, 0);
    assert Text.IndexOf(a, TxtSuffix) == Some(1);
    assert a[..1] + "" + a[5..] == "a.txt";
  }

  /** A row of the list: the file name it opens and the text it shows. */
  datatype PlanetRow = PlanetRow(name: string, shown: string)

  function RowOf(name: string): PlanetRow {
    PlanetRow(name, DisplayName(name))
  }

  /**
   The rows `data?.filter(filterItem) || []` renders: the search is matched
   against the raw file name, and each row shows that name without its
   first `.txt`.
   */
  function Rows(data: Option<seq<string>>, search: string): (r: seq<PlanetRow>)
    ensures data.None? ==> r == []
    ensures forall i :: 0 <= i < |r| ==> r[i].shown == DisplayName(r[i].name)
    ensures data.Some? ==> forall i :: 0 <= i < |r| ==> r[i].name in data.value && Search.Matches(r[i].name, search)
    ensures data.Some? ==> forall n :: n in data.value && Search.Matches(n, search) ==> exists i :: 0 <= i < |r| && r[i].name == n
    ensures data.Some? && search == "" ==> |r| == |data.value| && forall i :: 0 <= i < |r| ==> r[i].name == data.value[i]
    ensures data.Some? ==> var kept := Search.SearchFilter(data.value, Identity, search);
      |r| == |kept| && forall i :: 0 <= i < |kept| ==> r[i] == RowOf(kept[i])
  {
    match data
    case None => []
    case Some(names) =>
      var kept := Search.SearchFilter(names, Identity, search);
      RowsNameKept(kept);
      Map(kept, RowOf)
  }

  /** Every kept name has a row. */
  lemma RowsNameKept(kept: seq<string>)
    ensures forall n :: n in kept ==> exists i :: 0 <= i < |Map(kept, RowOf)| && Map(kept, RowOf)[i].name == n
  {
    var r := Map(kept, RowOf);
    forall n | n in kept
      ensures exists i :: 0 <= i < |r| && r[i].name == n
    {
      var i :| 0 <= i < |kept| && kept[i] == n;
      assert r[i].name == n;
    }
  }

  /** The rows do not depend on the letter case of the search. */
  lemma RowsCaseInsensitive(data: Option<seq<string>>, s1: string, s2: string)
    requires Text.ToLower(s1) == Text.ToLower(s2)
    ensures Rows(data, s1) == Rows(data, s2)
  {
    if data.Some? {
      Search.SearchCaseInsensitive(data.value, Identity, s1, s2);
    }
  }

  /** Choosing a file opens the editor on its raw name, as a planet. */
  function OnSelect(name: string): (r: Navigation.NavRequest)
    ensures r.route == "Edit"
    ensures r.params == Navigation.EditParams(name, Planet)
  {
    Navigation.Navigate("Edit", Navigation.EditParams(name, Planet))
  }
}

=== FILE: root_reducer.dfy ===
/** The combined store: every action is given to each slice's reducer. */
module RootReducer {
  import opened Wrappers
  import opened Entities
  import opened Actions
  import AuthReducer
  import AppReducer
  import ThemeReducer

  datatype RootState = RootState(app: AppReducer.AppState, auth: AuthReducer.AuthState, theme: Theme)

  /** A preloaded state may leave out any slice; the store starts from `{}` by default. */
  datatype Preloaded = Preloaded(
    app: Option<AppReducer.AppState>,
    auth: Option<AuthReducer.AuthState>,
    theme: Option<Theme>)

  predicate IsAuthAction(a: Action) {
    a.LoginAction? || a.LogoutAction? || a.UpdateUserInfoAction?
  }

  predicate IsAppAction(a: Action) {
    a.ShowToastAction? || a.SetNotificationToastAction?
  }

  /** One dispatch: each slice sees the action; a slice no case of which matches is untouched. */
  function Dispatch(s: RootState, a: Action): (r: RootState)
    ensures !IsAuthAction(a) ==> r.auth == s.auth
    ensures !IsAppAction(a) ==> r.app == s.app
    ensures !a.SetDarkThemeAction? ==> r.theme == s.theme
    ensures a.OtherAction? ==> r == s
  {
    RootState(AppReducer.Reduce(s.app, a), AuthReducer.Reduce(s.auth, a), ThemeReducer.Reduce(s.theme, a))
  }

  /** Store creation: missing slices take their reducer's initial state, then the store's init action runs. */
  function Create(pre: Preloaded, initType: string): (r: RootState)
    ensures pre.auth.None? ==> r.auth == AuthReducer.InitialAuthState
    ensures pre.app.None? ==> r.app == AppReducer.InitialAppState
    ensures pre.theme.None? ==> r.theme == ThemeReducer.InitialTheme
    ensures pre.auth.Some? ==> r.auth == pre.auth.value
  {
    Dispatch(
      RootState(
        pre.app.GetOr(AppReducer.InitialAppState),
        pre.auth.GetOr(AuthReducer.InitialAuthState),
        pre.theme.GetOr(ThemeReducer.InitialTheme)),
      OtherAction(initType))
  }

  /** A store created from `{}` has nobody signed in, no toast, a closed drawer and the dark theme. */
  lemma CreateEmpty(initType: string)
    ensures Create(Preloaded(None, None, None), initType)
         == RootState(AppReducer.AppState(None, false, None, None), AuthReducer.AuthState(None, None), DarkTheme)
  {
  }
}

=== FILE: search.dfy ===
/**
 The client-side search shared by the list screens: a case-insensitive
 substring test on an item's name, with an empty search keeping everything,
 and the text shown when the list is empty.
 */
module Search {
  import opened Wrappers
  import opened Seqs
  import Text

  /** `filterItem`: an empty search keeps every item; otherwise the lower-cased name must contain the lower-cased search. */
  predicate Matches(name: string, search: string) {
    !Text.Truthy(search) || Text.Contains(Text.ToLower(name), Text.ToLower(search))
  }

  /** A non-empty search keeps a name exactly when its lower-cased form occurs in the lower-cased name. */
  lemma MatchesIff(name: string, search: string)
    ensures Matches(name, search) <==>
      search == "" || exists i :: Text.OccursAt(Text.ToLower(name), Text.ToLower(search), i)
  {
    Text.ContainsIff(Text.ToLower(name), Text.ToLower(search));
  }

  /** Searches that differ only in letter case keep the same names. */
  lemma MatchesCaseInsensitive(name: string, s1: string, s2: string)
    requires Text.ToLower(s1) == Text.ToLower(s2)
    ensures Matches(name, s1) == Matches(name, s2)
  {
    Text.ToLowerLength(s1);
    Text.ToLowerLength(s2);
  }

  /** A name always matches a search for itself, in any letter case. */
  lemma MatchesItself(name: string, search: string)
    requires Text.ToLower(search) == Text.ToLower(name)
    ensures Matches(name, search)
  {
    Text.ContainsTrivial(Text.ToLower(name));
  }

  function Keep<T>(nameOf: T -> string, search: string): T -> bool {
    item => Matches(nameOf(item), search)
  }

  /** `items.filter(filterItem)` for a list whose items are named by `nameOf`. */
  function SearchFilter<T>(items: seq<T>, nameOf: T -> string, search: string): (r: seq<T>)
    ensures search == "" ==> r == items
    ensures forall i :: 0 <= i < |r| ==> r[i] in items && Matches(nameOf(r[i]), search)
    ensures forall i :: 0 <= i < |items| && Matches(nameOf(items[i]), search) ==> items[i] in r
    ensures IsSubsequence(r, items)
    ensures forall i {:trigger multiset(r)[items[i]]} :: 0 <= i < |items| ==>
      multiset(r)[items[i]] == if Matches(nameOf(items[i]), search) then multiset(items)[items[i]] else 0
  {
    var r := Filter(items, Keep(nameOf, search));
    FilterMultiplicity(items, Keep(nameOf, search));
    assert search == "" ==> r == items by {
      if search == "" {
        FilterAll(items, Keep(nameOf, search));
      }
    }
    r
  }

  /** A search no name matches lists nothing, so the empty-list view is shown. */
  lemma NoMatchListsNothing<T>(items: seq<T>, nameOf: T -> string, search: string)
    requires forall i :: 0 <= i < |items| ==> !Matches(nameOf(items[i]), search)
    ensures SearchFilter(items, nameOf, search) == []
  {
  }

  /** The filter is insensitive to the letter case of the search. */
  lemma SearchCaseInsensitive<T>(items: seq<T>, nameOf: T -> string, s1: string, s2: string)
    requires Text.ToLower(s1) == Text.ToLower(s2)
    ensures SearchFilter(items, nameOf, s1) == SearchFilter(items, nameOf, s2)
  {
    forall x | x in items
      ensures Keep(nameOf, s1)(x) == Keep(nameOf, s2)(x)
    {
      MatchesCaseInsensitive(nameOf(x), s1, s2);
    }
    FilterCongruent(items, Keep(nameOf, s1), Keep(nameOf, s2));
  }

  /** `Object.values(data || {})`: the values of an object in enumeration order; none for null. */
  function ObjectValues<V>(data: Option<seq<(string, V)>>): (r: seq<V>)
    ensures data.None? ==> r == []
    ensures data.Some? ==> |r| == |data.value| && forall i :: 0 <= i < |r| ==> r[i] == data.value[i].1
  {
    match data
    case None => []
    case Some(entries) => seq(|entries|, i requires 0 <= i < |entries| => entries[i].1)
  }

  /**
   `Object.values(data || {}).filter(filterItem)`, the pipeline of the
   Sharing screen and the gaming-video list: the records in enumeration
   order, keeping those whose name matches the search.
   */
  function ValuesListed<V>(data: Option<seq<(string, V)>>, nameOf: V -> string, search: string): (r: seq<V>)
    ensures data.None? ==> r == []
    ensures search == "" ==> r == ObjectValues(data)
    ensures forall i :: 0 <= i < |r| ==> r[i] in ObjectValues(data) && Matches(nameOf(r[i]), search)
    ensures forall i :: 0 <= i < |ObjectValues(data)| && Matches(nameOf(ObjectValues(data)[i]), search) ==>
      ObjectValues(data)[i] in r
    ensures IsSubsequence(r, ObjectValues(data))
    ensures forall i :: 0 <= i < |ObjectValues(data)| ==> var v := ObjectValues(data)[i];
      multiset(r)[v] == if Matches(nameOf(v), search) then multiset(ObjectValues(data))[v] else 0
  {
    SearchFilter(ObjectValues(data), nameOf, search)
  }

  /** A record is listed exactly when the data holds it and its name matches the search. */
  lemma ValuesListedIff<V>(data: Option<seq<(string, V)>>, nameOf: V -> string, search: string, v: V)
    ensures v in ValuesListed(data, nameOf, search) <==> v in ObjectValues(data) && Matches(nameOf(v), search)
  {
    var r := ValuesListed(data, nameOf, search);
    var vs := ObjectValues(data);
    if v in r {
      var i :| 0 <= i < |r| && r[i] == v;
    }
    if v in vs && Matches(nameOf(v), search) {
      var i :| 0 <= i < |vs| && vs[i] == v;
    }
  }

  /** Searches that differ only in letter case list the same records. */
  lemma ValuesListedCaseInsensitive<V>(data: Option<seq<(string, V)>>, nameOf: V -> string, s1: string, s2: string)
    requires Text.ToLower(s1) == Text.ToLower(s2)
    ensures ValuesListed(data, nameOf, s1) == ValuesListed(data, nameOf, s2)
  {
    SearchCaseInsensitive(ObjectValues(data), nameOf, s1, s2);
  }

  /** What an empty list shows: placeholders while loading, a message afterwards. */
  datatype EmptyListView = Skeletons(count: nat) | NoResult(message: string)

  /** The message of the video, blueprint and planet lists: it quotes the search when there is one. */
  function NoResultMessage(search: string): (r: string)
    ensures r == "No Video found!" <==> search == ""
    ensures search != "" ==> Text.Contains(r, "\"" + search + "\"")
  {
    if Text.Truthy(search) then
      var quoted := "\"" + search + "\"";
      var r := "No video found for " + quoted;
      assert Text.OccursAt(r, quoted, 19);
      Text.ContainsIff(r, quoted);
      assert r[3] == 'v';
      r
    else "No Video found!"
  }

  /** The message carries the search verbatim between the quotes that close it. */
  lemma NoResultMessageQuotes(search: string)
    requires search != ""
    ensures var m := NoResultMessage(search);
      |m| == |search| + 21 && m[19] == '"' && m[20..|m| - 1] == search && m[|m| - 1] == '"'
  {
    var head := "No video found for " + "\"";
    var m := head + search + "\"";
    assert NoResultMessage(search) == m;
    assert |head| == 20 && head[19] == '"';
    assert m[..|m| - 1] == head + search;
    assert (head + search)[20..] == search;
  }

  /** Distinct searches show distinct messages. */
  lemma NoResultMessageInjective(s1: string, s2: string)
    requires NoResultMessage(s1) == NoResultMessage(s2)
    ensures s1 == s2
  {
    if s1 != "" && s2 != "" {
      NoResultMessageQuotes(s1);
      NoResultMessageQuotes(s2);
    }
  }

  /** The empty-list view of the video, blueprint and planet lists. */
  function EmptyView(isLoading: bool, search: string): (r: EmptyListView)
    ensures isLoading ==> r == Skeletons(6)
    ensures !isLoading ==> r == NoResult(NoResultMessage(search))
  {
    if isLoading then Skeletons(6) else NoResult(NoResultMessage(search))
  }
}

=== FILE: seqs.dfy ===
/** `Array.prototype.filter` and `map` on sequences, with the facts the list screens rely on. */
module Seqs {

  /** `a` can be obtained from `b` by deleting elements, keeping the order of the rest. */
  ghost predicate IsSubsequence<T>(a: seq<T>, b: seq<T>)
    decreases |b|
  {
    || a == []
    || (b != [] && ((a[0] == b[0] && IsSubsequence(a[1..], b[1..])) || IsSubsequence(a, b[1..])))
  }

  /** `xs.filter(keep)`: the elements satisfying `keep`, in their original order. */
  function Filter<T>(xs: seq<T>, keep: T -> bool): (r: seq<T>)
    ensures |r| <= |xs|
    ensures forall i :: 0 <= i < |r| ==> r[i] in xs && keep(r[i])
    ensures forall i :: 0 <= i < |xs| && keep(xs[i]) ==> xs[i] in r
    ensures IsSubsequence(r, xs)
    decreases |xs|
  {
    if xs == [] then []
    else if keep(xs[0]) then
      var rest := Filter(xs[1..], keep);
      assert ([xs[0]] + rest)[1..] == rest;
      [xs[0]] + rest
    else Filter(xs[1..], keep)
  }

  /** The filter keeps every accepted element as many times as it occurs, and no rejected one. */
  lemma {:induction false} FilterMultiplicity<T>(xs: seq<T>, keep: T -> bool)
    ensures forall i {:trigger multiset(Filter(xs, keep))[xs[i]]} :: 0 <= i < |xs| ==>
      multiset(Filter(xs, keep))[xs[i]] == if keep(xs[i]) then multiset(xs)[xs[i]] else 0
    decreases |xs|
  {
    if xs != [] {
      FilterMultiplicity(xs[1..], keep);
      assert xs == [xs[0]] + xs[1..];
      forall i | 0 <= i < |xs|
        ensures multiset(Filter(xs, keep))[xs[i]] == if keep(xs[i]) then multiset(xs)[xs[i]] else 0
      {
        var x := xs[i];
        var rest := Filter(xs[1..], keep);
        assert multiset(xs)[x] == multiset([xs[0]])[x] + multiset(xs[1..])[x];
        if x !in xs[1..] {
          assert multiset(xs[1..])[x] == 0;
          assert x !in rest;
          assert multiset(rest)[x] == 0;
        } else {
          var j :| 0 <= j < |xs[1..]| && xs[1..][j] == x;
          assert multiset(rest)[xs[1..][j]] == if keep(x) then multiset(xs[1..])[x] else 0;
        }
        if keep(xs[0]) {
          assert Filter(xs, keep) == [xs[0]] + rest;
          assert multiset(Filter(xs, keep))[x] == multiset([xs[0]])[x] + multiset(rest)[x];
        }
      }
    }
  }

  /** A filter that rejects nothing returns its input. */
  lemma {:induction false} FilterAll<T>(xs: seq<T>, keep: T -> bool)
    requires forall x :: x in xs ==> keep(x)
    ensures Filter(xs, keep) == xs
    decreases |xs|
  {
    if xs != [] {
      assert xs == [xs[0]] + xs[1..];
      FilterAll(xs[1..], keep);
    }
  }

  /** One filtering step: the head is kept exactly when the predicate accepts it. */
  lemma FilterCons<T>(x: T, xs: seq<T>, keep: T -> bool)
    ensures Filter([x] + xs, keep) == if keep(x) then [x] + Filter(xs, keep) else Filter(xs, keep)
  {
    assert ([x] + xs)[1..] == xs;
  }

  /** Filtering distributes over concatenation. */
  lemma {:induction false} FilterConcat<T>(a: seq<T>, b: seq<T>, keep: T -> bool)
    ensures Filter(a + b, keep) == Filter(a, keep) + Filter(b, keep)
    decreases |a|
  {
    if a == [] {
      assert a + b == b;
    } else {
      assert (a + b)[0] == a[0];
      assert (a + b)[1..] == a[1..] + b;
      FilterConcat(a[1..], b, keep);
    }
  }

  /** Filtering twice with the same predicate is filtering once. */
  lemma {:induction false} FilterIdempotent<T>(xs: seq<T>, keep: T -> bool)
    ensures Filter(Filter(xs, keep), keep) == Filter(xs, keep)
  {
    FilterAll(Filter(xs, keep), keep);
  }

  /** Two predicates that agree on every element give the same filter. */
  lemma {:induction false} FilterCongruent<T>(xs: seq<T>, k1: T -> bool, k2: T -> bool)
    requires forall x :: x in xs ==> k1(x) == k2(x)
    ensures Filter(xs, k1) == Filter(xs, k2)
    decreases |xs|
  {
    if xs != [] {
      assert forall x :: x in xs[1..] ==> x in xs;
      FilterCongruent(xs[1..], k1, k2);
    }
  }

  /** `xs.map(f)`. */
  function Map<T, U>(xs: seq<T>, f: T -> U): (r: seq<U>)
    ensures |r| == |xs|
    ensures forall i :: 0 <= i < |xs| ==> r[i] == f(xs[i])
  {
    seq(|xs|, i requires 0 <= i < |xs| => f(xs[i]))
  }
}

=== FILE: sharing.dfy ===
/** The Sharing screen: the live list of shared blueprints, filtered by the search box. */
module Sharing {
  import opened Wrappers
  import opened Entities
  import Search

  function NameOf(item: BpsInfo): string {
    item.name
  }

  /** A shared blueprint is listed exactly when the data holds it and its name matches the search. */
  lemma PostListed(data: Option<seq<(string, BpsInfo)>>, search: string, post: BpsInfo)
    ensures post in Search.ValuesListed(data, NameOf, search) <==>
      post in Search.ObjectValues(data) && Search.Matches(post.name, search)
  {
    Search.ValuesListedIff(data, NameOf, search, post);
  }

  /** The Sharing screen's empty list: placeholders while loading, then a fixed message. */
  function EmptyView(isLoading: bool): (r: Search.EmptyListView)
    ensures isLoading <==> r.Skeletons?
    ensures r.Skeletons? ==> r.count == 6
    ensures r.NoResult? ==> r.message == "No Posts found!"
  {
    if isLoading then Search.Skeletons(6) else Search.NoResult("No Posts found!")
  }
}

=== FILE: signup.dfy ===
/** The sign-up screen's submit handler and the handling of its outcome. */
module Signup {
  import opened Wrappers
  import opened Entities
  import opened Actions
  import opened Validation
  import Text
  import AuthActions
  import AppActions
  import Button

  /** What is sent to the account-creation backend. */
  datatype SignupRequest = SignupRequest(email: string, password: string, displayName: string)

  const EmailEmpty := "Email is empty"
  const EmailInvalid := "Email is not valid"
  const PasswordEmpty := "Password is empty"
  const ConfirmMismatch := "Confirm Password does not match"

  /**
   `registerHandler` up to the backend call: nothing when the button is
   disabled; otherwise the email (empty, then not matching `isEmail`), the
   password (empty) and the confirmation (different) are checked in that
   order, and the first failure is reported on its field. The name is
   never checked.
   */
  function Register(buttonDisabled: bool, email: string, name: string, password: string,
                    confirm: string, isEmail: string -> bool): (r: Step<SignupRequest>)
    ensures buttonDisabled <==> r.Ignored?
    ensures !buttonDisabled && email == "" ==> r == FieldError(EmailField, EmailEmpty)
    ensures !buttonDisabled && email != "" && !isEmail(email) ==> r == FieldError(EmailField, EmailInvalid)
    ensures r.Proceed? <==>
      !buttonDisabled && email != "" && isEmail(email) && password != "" && password == confirm
    ensures r.Proceed? ==> r.request == SignupRequest(email, password, name)
  {
    if buttonDisabled then Ignored
    else if !Text.Truthy(email) then FieldError(EmailField, EmailEmpty)
    else if !isEmail(email) then FieldError(EmailField, EmailInvalid)
    else if !Text.Truthy(password) then FieldError(PasswordField, PasswordEmpty)
    else if password != confirm then FieldError(ConfirmPasswordField, ConfirmMismatch)
    else Proceed(SignupRequest(email, password, name))
  }

  /** The sign-up checks as an ordered chain. */
  function Checks(email: string, password: string, confirm: string, isEmail: string -> bool): seq<Check> {
    [ Check(!Text.Truthy(email), EmailField, EmailEmpty),
      Check(!isEmail(email), EmailField, EmailInvalid),
      Check(!Text.Truthy(password), PasswordField, PasswordEmpty),
      Check(password != confirm, ConfirmPasswordField, ConfirmMismatch) ]
  }

  /** The handler's nested conditions are exactly "first failing check of the chain wins". */
  lemma RegisterIsFirstFailure(email: string, name: string, password: string, confirm: string, isEmail: string -> bool)
    ensures Register(false, email, name, password, confirm, isEmail)
         == Decide(Checks(email, password, confirm, isEmail), SignupRequest(email, password, name))
  {
    var c := Checks(email, password, confirm, isEmail);
    var f := FirstFailure(c);
    if !Text.Truthy(email) {
      assert f == Some(0);
    } else if !isEmail(email) {
      assert !c[0].failed && c[1].failed;
      assert f == Some(1);
    } else if !Text.Truthy(password) {
      assert !c[0].failed && !c[1].failed && c[2].failed;
      assert f == Some(2);
    } else if password != confirm {
      assert !c[0].failed && !c[1].failed && !c[2].failed && c[3].failed;
      assert f == Some(3);
    } else {
      assert f == None;
    }
  }

  /** The name never influences which error is reported. */
  lemma NameNotValidated(disabled: bool, email: string, n1: string, n2: string, password: string,
                         confirm: string, isEmail: string -> bool)
    ensures Register(disabled, email, n1, password, confirm, isEmail).Proceed?
        <==> Register(disabled, email, n2, password, confirm, isEmail).Proceed?
    ensures !Register(disabled, email, n1, password, confirm, isEmail).Proceed? ==>
      Register(disabled, email, n1, password, confirm, isEmail) == Register(disabled, email, n2, password, confirm, isEmail)
  {
  }

  /** Once the submit button's loader is on, a second submit is ignored. */
  lemma SubmitIgnoredWhileLoading(p: Button.Props, s: Button.ButtonState, email: string, name: string,
                                  password: string, confirm: string, isEmail: string -> bool)
    ensures Register(Button.IsDisabled(p, Button.ShowLoader(s, None)), email, name, password, confirm, isEmail).Ignored?
  {
  }

  /** The backend's answer to account creation. */
  datatype CreateResult = Created(user: User) | CreateFailed(message: string)

  /** What follows the backend call: one action dispatched, and the button loader set on then off. */
  datatype Effects = Effects(dispatched: Action, loaderCalls: seq<bool>)

  const FailureTitle := "Error Signing In"
  const FailureFallback := "Unable to Sign In"

  /**
   On success the new user is authenticated (with the default token); on
   failure an error toast titled "Error Signing In" shows the error's
   message, or "Unable to Sign In" when it has none. The loader is cleared
   in both cases.
   */
  function AfterCreate(result: CreateResult): (r: Effects)
    ensures r.loaderCalls == [true, false]
    ensures result.Created? ==> r.dispatched == LoginAction(Some(result.user), "")
    ensures result.CreateFailed? ==> r.dispatched.ShowToastAction?
    ensures result.CreateFailed? ==> r.dispatched.toast.kind == Error && r.dispatched.toast.title == FailureTitle
    ensures result.CreateFailed? && result.message != "" ==> r.dispatched.toast.text == result.message
    ensures result.CreateFailed? && result.message == "" ==> r.dispatched.toast.text == FailureFallback
  {
    match result
    case Created(user) => Effects(AuthActions.Authenticate(Some(user), None), [true, false])
    case CreateFailed(message) =>
      var info := ToastInfo(FailureTitle, Text.OrElse(Some(message), FailureFallback), Some(Error), None, None);
      Effects(AppActions.SetToast(info), [true, false])
  }

  /** Whatever the backend answered, the loader calls leave an enabled button enabled for the next submit. */
  lemma ButtonEnabledAfterCreate(p: Button.Props, s: Button.ButtonState, result: CreateResult)
    requires !p.disabled
    ensures var calls := AfterCreate(result).loaderCalls;
      !Button.IsDisabled(p, Button.ShowLoader(Button.ShowLoader(s, Some(calls[0])), Some(calls[1])))
  {
  }
}

=== FILE: tab.dfy ===
/**
 The tab view's controller logic: one route per data key, resolution of
 the index passed to `onIndexChange`, the scroll-into-view rule and the
 arguments of the change callback. The data object is given by its keys
 in enumeration order.
 */
module Tab {
  import opened Wrappers
  import Text

  /** A tab-view route. */
  datatype Route = Route(key: string, title: string)

  /** One route per key, in key order, titled with the trimmed key. */
  function Routes(keys: seq<string>): (r: seq<Route>)
    ensures |r| == |keys|
    ensures forall i :: 0 <= i < |keys| ==> r[i].key == keys[i] && r[i].title == Text.Trim(keys[i])
  {
    seq(|keys|, i requires 0 <= i < |keys| => Route(keys[i], Text.Trim(keys[i])))
  }

  /** `keys.findIndex(k => k == key)`: the first position holding `key`, or -1. */
  function FindIndex(keys: seq<string>, key: string): (r: int)
    ensures -1 <= r < |keys|
    ensures r >= 0 ==> keys[r] == key && forall j :: 0 <= j < r ==> keys[j] != key
    ensures r == -1 <==> key !in keys
  {
    if keys == [] then -1
    else if keys[0] == key then 0
    else
      var i := FindIndex(keys[1..], key);
      if i == -1 then -1 else i + 1
  }

  /** `keys[n]` is a non-empty string (so truthy). */
  predicate KeyTruthyAt(keys: seq<string>, n: int) {
    0 <= n < |keys| && keys[n] != ""
  }

  /** The index after the fallback lookup of line 56: kept when `keys[n]` is truthy, else the position of the key spelled `${n}`. */
  function ResolveIndex(keys: seq<string>, n: int): (r: int)
    ensures -1 <= r < |keys|
    ensures KeyTruthyAt(keys, n) ==> r == n
    ensures !KeyTruthyAt(keys, n) ==> r == FindIndex(keys, Text.IntToString(n))
  {
    if KeyTruthyAt(keys, n) then n else FindIndex(keys, Text.IntToString(n))
  }

  /** A resolved index names a tab: the one asked for, or the first key that spells the number asked for. */
  lemma ResolveIndexMeaning(keys: seq<string>, n: int)
    ensures var r := ResolveIndex(keys, n);
      r >= 0 ==> (r == n && keys[n] != "") || (!KeyTruthyAt(keys, n) && keys[r] == Text.IntToString(n))
    ensures ResolveIndex(keys, n) == -1 <==> !KeyTruthyAt(keys, n) && Text.IntToString(n) !in keys
  {
  }

  /** Numeric-looking keys are found by their spelling when the position itself has no key. */
  lemma ResolveNumericKey()
    ensures ResolveIndex(["3", "7"], 7) == 1
  {
    assert Text.IntToString(7) == "7";
  }

  /** A laid-out tab: its left edge and width. */
  datatype Layout = Layout(x: int, width: int)

  /** The previous-key argument of `onTabChange`: `null`, a key, or `undefined` when the index is out of range. */
  datatype PreviousKey = NoPrevious | PreviousKeyAt(key: string) | PreviousUndefined

  /** The arguments passed to `onTabChange`. */
  datatype TabNotice = TabNotice(key: string, previous: PreviousKey)

  /** The outcome of a successful `onIndexChange`: the new stored index, the `scrollTo` targets requested in order, and the callback arguments. */
  datatype TabChange = TabChange(index: nat, scrolls: seq<int>, notice: Option<TabNotice>)

  /** `previousIndex ? keys[previousIndex] : null`. */
  function PreviousOf(keys: seq<string>, previousIndex: Option<int>): (r: PreviousKey)
    ensures previousIndex.None? || previousIndex == Some(0) <==> r.NoPrevious?
    ensures r.PreviousKeyAt? <==> previousIndex.Some? && previousIndex.value != 0 && 0 <= previousIndex.value < |keys|
    ensures r.PreviousKeyAt? ==> r.key == keys[previousIndex.value]
  {
    match previousIndex
    case None => NoPrevious
    case Some(p) =>
      if p == 0 then NoPrevious
      else if 0 <= p < |keys| then PreviousKeyAt(keys[p])
      else PreviousUndefined
  }

  /**
   `onIndexChange(newIndex, previousIndex)`. Reading the layout of an
   index that was never laid out throws, so that is a failure. The tab is
   scrolled to when it ends past the device width, and again when it
   starts left of the current scroll offset.
   */
  function OnIndexChange(
    keys: seq<string>, positions: map<nat, Layout>, scrollX: int, deviceWidth: int,
    hasCallback: bool, newIndex: int, previousIndex: Option<int>): (r: Result<TabChange, string>)
    ensures var i := ResolveIndex(keys, newIndex);
      r.Failure? <==> i < 0 || i !in positions
    ensures r.Success? ==> r.value.index == ResolveIndex(keys, newIndex) && r.value.index < |keys|
    ensures r.Success? ==> forall j :: 0 <= j < |r.value.scrolls| ==> r.value.scrolls[j] == positions[r.value.index].x
    ensures r.Success? ==> var l := positions[r.value.index];
      (r.value.scrolls == [] <==> scrollX <= l.x && l.x + l.width <= deviceWidth)
    ensures r.Success? ==> var l := positions[r.value.index];
      |r.value.scrolls| == (if l.x + l.width > deviceWidth then 1 else 0) + (if l.x < scrollX then 1 else 0)
    ensures r.Success? ==> (r.value.notice.Some? <==> hasCallback)
    ensures r.Success? && hasCallback ==>
      r.value.notice.value == TabNotice(keys[r.value.index], PreviousOf(keys, previousIndex))
  {
    var i := ResolveIndex(keys, newIndex);
    if i < 0 || i !in positions then Failure("TypeError: layout of tab " + Text.IntToString(i) + " is undefined")
    else
      var l := positions[i];
      var first := if l.x + l.width > deviceWidth then [l.x] else [];
      var second := if l.x < scrollX then [l.x] else [];
      var notice := if hasCallback then Some(TabNotice(keys[i], PreviousOf(keys, previousIndex))) else None;
      Success(TabChange(i, first + second, notice))
  }

  /** Without any laid-out tab (no tab bar shown), every index change throws. */
  lemma NoLayoutFails(keys: seq<string>, scrollX: int, deviceWidth: int, hasCallback: bool, n: int, p: Option<int>)
    ensures OnIndexChange(keys, map[], scrollX, deviceWidth, hasCallback, n, p).Failure?
  {
  }

  /** Coming from the first tab reports no previous key, exactly as coming from nowhere does. */
  lemma FirstTabReadsAsNoPrevious(keys: seq<string>, positions: map<nat, Layout>, scrollX: int, deviceWidth: int, n: int)
    requires OnIndexChange(keys, positions, scrollX, deviceWidth, true, n, Some(0)).Success?
    ensures OnIndexChange(keys, positions, scrollX, deviceWidth, true, n, Some(0))
         == OnIndexChange(keys, positions, scrollX, deviceWidth, true, n, None)
  {
  }

  /** Changing to the tab already shown, with it in view, changes nothing and scrolls nowhere. */
  lemma StayInView(keys: seq<string>, positions: map<nat, Layout>, scrollX: int, deviceWidth: int, n: nat)
    requires KeyTruthyAt(keys, n) && n in positions
    requires scrollX <= positions[n].x && positions[n].x + positions[n].width <= deviceWidth
    ensures OnIndexChange(keys, positions, scrollX, deviceWidth, false, n, Some(n)) == Success(TabChange(n, [], None))
  {
  }

  /** What the tab view is given to render. */
  datatype TabView = TabView(index: nat, routes: seq<Route>)

  /**
   Rendering as written: the routes are computed from `Object.keys(data)`
   before the missing-data guard is reached, and `Object.keys` throws on a
   missing object.
   */
  function RenderAsWritten(data: Option<seq<string>>, index: nat): (r: Result<Option<TabView>, string>)
    ensures data.None? <==> r.Failure?
    ensures data.Some? ==> r == Success(Some(TabView(index, Routes(data.value))))
  {
    match data
    case None => Failure("TypeError: Cannot convert undefined or null to object")
    case Some(keys) => Success(Some(TabView(index, Routes(keys))))
  }

  /** As written, missing data throws instead of rendering nothing. */
  lemma MissingDataThrows(index: nat)
    ensures RenderAsWritten(None, index).Failure?
  {
  }

  /** Rendering with the guard first, as evidently intended: missing data renders nothing. */
  function Render(data: Option<seq<string>>, index: nat): (r: Result<Option<TabView>, string>)
    ensures r.Success?
    ensures data.None? <==> r.value.None?
    ensures data.Some? ==> r.value.value.index == index && r.value.value.routes == Routes(data.value)
  {
    match data
    case None => Success(None)
    case Some(keys) => Success(Some(TabView(index, Routes(keys))))
  }

  /** The corrected rendering differs from the written one only on missing data. */
  lemma RenderAgreesOnPresentData(data: Option<seq<string>>, index: nat)
    ensures data.Some? ==> Render(data, index) == RenderAsWritten(data, index)
    ensures data.None? ==> Render(data, index) == Success(None) && RenderAsWritten(data, index).Failure?
  {
  }
}

=== FILE: text.dfy ===
/**
 The JavaScript string operations the client relies on, on `seq<char>`:
 truthiness, `toLowerCase`/`toUpperCase` (ASCII letters only), `trim`
 (the full ECMAScript white-space and line-terminator set), `indexOf`,
 `includes`, `replace` with a string pattern, and `${n}` for integers.
 */
module Text {
  import opened Wrappers

  /** A string is truthy in JavaScript iff it is non-empty. */
  predicate Truthy(s: string) {
    s != ""
  }

  /** An optional string is truthy iff it is present and non-empty. */
  predicate TruthyOpt(o: Option<string>) {
    o.Some? && o.value != ""
  }

  /** `o || d` on an optional string. */
  function OrElse(o: Option<string>, d: string): (r: string)
    ensures TruthyOpt(o) ==> r == o.value
    ensures !TruthyOpt(o) ==> r == d
  {
    if TruthyOpt(o) then o.value else d
  }

  // ---------------------------------------------------------------------
  // Case mapping (ASCII letters only)

  function LowerChar(c: char): char {
    if 'A' <= c <= 'Z' then (c as int + 32) as char else c
  }

  function UpperChar(c: char): char {
    if 'a' <= c <= 'z' then (c as int - 32) as char else c
  }

  function ToLower(s: string): string {
    seq(|s|, i requires 0 <= i < |s| => LowerChar(s[i]))
  }

  function ToUpper(s: string): string {
    seq(|s|, i requires 0 <= i < |s| => UpperChar(s[i]))
  }

  /** Lower-casing keeps the length, so it never turns a truthy string falsy. */
  lemma ToLowerLength(s: string)
    ensures |ToLower(s)| == |s|
    ensures Truthy(ToLower(s)) <==> Truthy(s)
  {
  }

  /** Lower-casing twice is lower-casing once. */
  lemma ToLowerIdempotent(s: string)
    ensures ToLower(ToLower(s)) == ToLower(s)
  {
  }

  /** Strings that differ only in the case of their letters lower-case alike. */
  lemma ToLowerOfUpper(s: string)
    ensures ToLower(ToUpper(s)) == ToLower(s)
  {
  }

  // ---------------------------------------------------------------------
  // Trimming

  /** The UTF-16 code units a character takes: a surrogate pair beyond the Basic Multilingual Plane. */
  function Utf16Units(c: char): nat {
    if c as int >= 0x10000 then 2 else 1
  }

  /** JavaScript's `s.length`, which counts UTF-16 code units rather than characters. */
  function Utf16Length(s: string): (r: nat)
    ensures |s| <= r <= 2 * |s|
    decreases |s|
  {
    if s == [] then 0 else Utf16Units(s[0]) + Utf16Length(s[1..])
  }

  /** `length` counts characters exactly when none lies beyond the Basic Multilingual Plane. */
  lemma {:induction false} Utf16LengthOfBmp(s: string)
    ensures Utf16Length(s) == |s| <==> forall i :: 0 <= i < |s| ==> s[i] as int < 0x10000
    decreases |s|
  {
    if s != [] {
      Utf16LengthOfBmp(s[1..]);
      assert forall i :: 1 <= i < |s| ==> s[i] == s[1..][i - 1];
    }
  }

  /** ECMAScript WhiteSpace and LineTerminator code points: what `trim` removes. */
  predicate IsWhite(c: char) {
    var n := c as int;
    n == 0x09 || n == 0x0A || n == 0x0B || n == 0x0C || n == 0x0D || n == 0x20
    || n == 0xA0 || n == 0x1680 || (0x2000 <= n <= 0x200A)
    || n == 0x2028 || n == 0x2029 || n == 0x202F || n == 0x205F
    || n == 0x3000 || n == 0xFEFF
  }

  /** Number of white characters at the start of `s`. */
  function LeadingWhite(s: string): (k: nat)
    ensures k <= |s|
    ensures forall i :: 0 <= i < k ==> IsWhite(s[i])
    ensures k == |s| || !IsWhite(s[k])
  {
    if s == [] || !IsWhite(s[0]) then 0 else 1 + LeadingWhite(s[1..])
  }

  /** Number of white characters at the end of `s`. */
  function TrailingWhite(s: string): (k: nat)
    ensures k <= |s|
    ensures forall i :: |s| - k <= i < |s| ==> IsWhite(s[i])
    ensures k == |s| || !IsWhite(s[|s| - 1 - k])
  {
    if s == [] || !IsWhite(s[|s| - 1]) then 0 else 1 + TrailingWhite(s[..|s| - 1])
  }

  /** JavaScript's `String.prototype.trim`. */
  function Trim(s: string): (r: string)
    ensures r == [] || (!IsWhite(r[0]) && !IsWhite(r[|r| - 1]))
    ensures exists a, b ::
              && 0 <= a <= b <= |s| && r == s[a..b]
              && (forall i :: 0 <= i < a ==> IsWhite(s[i]))
              && (forall i :: b <= i < |s| ==> IsWhite(s[i]))
  {
    var a := LeadingWhite(s);
    var t := s[a..];
    var e := TrailingWhite(t);
    assert t[..|t| - e] == s[a..|s| - e];
    s[a..|s| - e]
  }

  /** A string with no white character at either end is its own trim. */
  lemma TrimOfTrimmed(s: string)
    requires s == [] || (!IsWhite(s[0]) && !IsWhite(s[|s| - 1]))
    ensures Trim(s) == s
  {
    if s != [] {
      assert LeadingWhite(s) == 0;
      assert TrailingWhite(s) == 0;
    }
  }

  /** Trimming twice is trimming once. */
  lemma TrimIdempotent(s: string)
    ensures Trim(Trim(s)) == Trim(s)
  {
    TrimOfTrimmed(Trim(s));
  }

  // ---------------------------------------------------------------------
  // Searching

  /** `p` occurs in `s` starting at position `i`. */
  predicate OccursAt(s: string, p: string, i: int) {
    0 <= i && i + |p| <= |s| && s[i..i + |p|] == p
  }

  /** The first occurrence of `p` in `s` at or after `k`. */
  function IndexOfFrom(s: string, p: string, k: nat): (r: Option<nat>)
    requires k <= |s|
    ensures r.Some? ==> k <= r.value && OccursAt(s, p, r.value)
    ensures r.Some? ==> forall j :: k <= j < r.value ==> !OccursAt(s, p, j)
    ensures r.None? ==> forall j :: k <= j ==> !OccursAt(s, p, j)
    decreases |s| - k
  {
    if k + |p| > |s| then None
    else if s[k..k + |p|] == p then Some(k)
    else IndexOfFrom(s, p, k + 1)
  }

  /** The search moves past a position where the pattern's first character is absent. */
  lemma IndexOfFromSkip(s: string, p: string, k: nat)
    requires p != [] && k < |s| && s[k] != p[0]
    ensures IndexOfFrom(s, p, k) == IndexOfFrom(s, p, k + 1)
  {
    if k + |p| <= |s| {
      assert s[k..k + |p|][0] == s[k];
    }
  }

  /** The search stops at the first position it reaches where the pattern occurs. */
  lemma IndexOfFromHit(s: string, p: string, k: nat)
    requires k <= |s| && OccursAt(s, p, k)
    ensures IndexOfFrom(s, p, k) == Some(k)
  {
  }

  /** JavaScript's `s.indexOf(p)`, with `None` for -1. */
  function IndexOf(s: string, p: string): (r: Option<nat>)
    ensures r.Some? ==> OccursAt(s, p, r.value)
    ensures r.Some? ==> forall j :: 0 <= j < r.value ==> !OccursAt(s, p, j)
    ensures r.None? ==> forall j :: !OccursAt(s, p, j)
  {
    IndexOfFrom(s, p, 0)
  }

  /** JavaScript's `s.includes(p)`. */
  predicate Contains(s: string, p: string) {
    IndexOf(s, p).Some?
  }

  /** `includes` holds exactly when the pattern occurs somewhere. */
  lemma ContainsIff(s: string, p: string)
    ensures Contains(s, p) <==> exists i :: OccursAt(s, p, i)
  {
    if Contains(s, p) {
      assert OccursAt(s, p, IndexOf(s, p).value);
    }
  }

  /** Every string contains the empty string and itself. */
  lemma ContainsTrivial(s: string)
    ensures Contains(s, "")
    ensures Contains(s, s)
  {
    assert OccursAt(s, "", 0);
    assert OccursAt(s, s, 0);
    ContainsIff(s, "");
    ContainsIff(s, s);
  }

  /** JavaScript's `s.replace(p, q)` with a string pattern: only the first occurrence is replaced. */
  function ReplaceFirst(s: string, p: string, q: string): (r: string)
    ensures IndexOf(s, p).None? ==> r == s
    ensures IndexOf(s, p).Some? ==>
      var i := IndexOf(s, p).value;
      r == s[..i] + q + s[i + |p|..]
  {
    match IndexOf(s, p)
    case None => s
    case Some(i) => s[..i] + q + s[i + |p|..]
  }

  // ---------------------------------------------------------------------
  // Decimal integers

  function DigitChar(d: nat): char
    requires d < 10
  {
    ('0' as int + d) as char
  }

  predicate IsDigit(c: char) {
    '0' <= c <= '9'
  }

  function DigitValue(c: char): nat
    requires IsDigit(c)
  {
    c as int - '0' as int
  }

  /** The shortest decimal form of `n`, as JavaScript prints it. */
  function NatToString(n: nat): (r: string)
    ensures |r| >= 1
    ensures forall i :: 0 <= i < |r| ==> IsDigit(r[i])
    ensures r[0] == '0' ==> n == 0 && r == "0"
    decreases n
  {
    if n < 10 then [DigitChar(n)] else NatToString(n / 10) + [DigitChar(n % 10)]
  }

  /** The value of a string of decimal digits. */
  function ParseDigits(s: string): nat
    requires forall i :: 0 <= i < |s| ==> IsDigit(s[i])
  {
    if s == [] then 0 else 10 * ParseDigits(s[..|s| - 1]) + DigitValue(s[|s| - 1])
  }

  /** Reading back the printed form gives the number. */
  lemma {:induction false} ParseNatToString(n: nat)
    ensures ParseDigits(NatToString(n)) == n
    decreases n
  {
    if n >= 10 {
      var s := NatToString(n);
      assert s[..|s| - 1] == NatToString(n / 10);
      ParseNatToString(n / 10);
    }
  }

  /** JavaScript's template literal `${n}` for an integer `n`. */
  function IntToString(n: int): (r: string)
    ensures |r| >= 1
    ensures r[0] == '-' <==> n < 0
  {
    if n < 0 then "-" + NatToString(-n) else NatToString(n)
  }

  /** Distinct integers print differently. */
  lemma IntToStringInjective(m: int, n: int)
    requires IntToString(m) == IntToString(n)
    ensures m == n
  {
    if m < 0 {
      assert NatToString(-m) == IntToString(m)[1..];
      ParseNatToString(-m);
      ParseNatToString(-n);
    } else {
      ParseNatToString(m);
      ParseNatToString(n);
    }
  }
}

=== FILE: theme_actions.dfy ===
/** Action creator for the theme slice. */
module ThemeActions {
  import opened Wrappers
  import opened Actions

  /**
   `setTheme(theme)`: exact, case-sensitive comparison with "dark" and
   "dim"; every other string, and the default "light", selects the light theme.
   */
  function SetTheme(theme: Option<string>): (a: Action)
    ensures a.SetDarkThemeAction? || a.SetDimThemeAction? || a.SetLightThemeAction?
    ensures a.SetDarkThemeAction? <==> theme == Some("dark")
    ensures a.SetDimThemeAction? <==> theme == Some("dim")
  {
    match theme.GetOr("light")
    case "dark" => SetDarkThemeAction
    case "dim" => SetDimThemeAction
    case _ => SetLightThemeAction
  }

  /** Wrong-case names and the default select the light theme. */
  lemma SetThemeLight()
    ensures SetTheme(Some("Dark")) == SetLightThemeAction
    ensures SetTheme(None) == SetLightThemeAction
    ensures SetTheme(Some("light")) == SetLightThemeAction
  {
  }
}

=== FILE: theme_reducer.dfy ===
/** The theme slice of the store. */
module ThemeReducer {
  import opened Entities
  import opened Actions

  /** The store starts on the dark theme. */
  const InitialTheme := DarkTheme

  /**
   The theme reducer: SET_DARK_THEME selects the dark theme whatever came
   before; every other action, SET_LIGHT_THEME and SET_DIM_THEME included,
   keeps the current theme.
   */
  function Reduce(s: Theme, a: Action): (r: Theme)
    ensures a.SetDarkThemeAction? ==> r == DarkTheme
    ensures !a.SetDarkThemeAction? ==> r == s
  {
    match a
    case SetDarkThemeAction => DarkTheme
    case _ => s
  }

  /** SET_DARK_THEME is idempotent. */
  lemma DarkIdempotent(s: Theme)
    ensures Reduce(Reduce(s, SetDarkThemeAction), SetDarkThemeAction) == Reduce(s, SetDarkThemeAction)
  {
  }

  /** The theme always stays the initial dark theme when the store starts from it. */
  lemma {:induction false} AlwaysDark(actions: seq<Action>)
    ensures ReduceAll(InitialTheme, actions) == DarkTheme
    decreases |actions|
  {
    if actions != [] {
      AlwaysDark(actions[..|actions| - 1]);
    }
  }

  /** The theme after dispatching `actions` in order. */
  function ReduceAll(s: Theme, actions: seq<Action>): Theme
    decreases |actions|
  {
    if actions == [] then s else Reduce(ReduceAll(s, actions[..|actions| - 1]), actions[|actions| - 1])
  }
}

=== FILE: validation.dfy ===
/** Ordered form validation: checks run in order and the first failing one decides the error. */
module Validation {
  import opened Wrappers

  datatype Field = EmailField | NameField | PasswordField | ConfirmPasswordField

  /** One check of a chain: whether it failed, and the field and message it reports. */
  datatype Check = Check(failed: bool, field: Field, message: string)

  /** The position of the first failing check, if any. */
  function FirstFailure(checks: seq<Check>): (r: Option<nat>)
    ensures r.Some? ==> r.value < |checks| && checks[r.value].failed
    ensures r.Some? ==> forall j :: 0 <= j < r.value ==> !checks[j].failed
    ensures r.None? <==> forall j :: 0 <= j < |checks| ==> !checks[j].failed
  {
    if checks == [] then None
    else if checks[0].failed then Some(0)
    else match FirstFailure(checks[1..])
      case None => None
      case Some(i) => Some(i + 1)
  }

  /** What a submit handler decides before calling the backend. */
  datatype Step<T> =
    | Ignored                                 // the submit button reported itself disabled
    | FieldError(field: Field, message: string)
    | Proceed(request: T)

  /** The step a check chain leads to when every check passing means `request`. */
  function Decide<T>(checks: seq<Check>, request: T): (r: Step<T>)
    ensures r.Proceed? <==> FirstFailure(checks).None?
    ensures r.Proceed? ==> r.request == request
    ensures r.FieldError? ==>
      var i := FirstFailure(checks).value;
      r.field == checks[i].field && r.message == checks[i].message
    ensures !r.Ignored?
  {
    match FirstFailure(checks)
    case None => Proceed(request)
    case Some(i) => FieldError(checks[i].field, checks[i].message)
  }
}

=== FILE: wrappers.dfy ===
/** Option and Result: JavaScript's `null`/`undefined` and thrown errors, made explicit. */
module Wrappers {

  /** A value that may be absent (`null` or `undefined` in the source). */
  datatype Option<+T> = None | Some(value: T) {

    /** The value, or `default` when absent (the source's `x ?? d` / `x || d` on objects). */
    function GetOr(default: T): T {
      match this
      case Some(v) => v
      case None => default
    }
  }

  /** The outcome of an operation that may throw. */
  datatype Result<+R, +E> = Success(value: R) | Failure(error: E) {

    predicate IsFailure() {
      Failure?
    }

    function PropagateFailure<U>(): Result<U, E>
      requires Failure?
    {
      Failure(error)
    }

    function Extract(): R
      requires Success?
    {
      value
    }
  }
}
